=== FILE: README.md ===
# LocalShare core rules in Dafny

LocalShare is a desktop app that finds peers on the local network over
mDNS and exchanges device descriptors with them. It sends them messages
and serves the files those messages point to. This project models the
deterministic rules inside that app and proves properties about them:

- the string helpers that derive table and column names (`toUnderCase`,
  `toFirstLower`) and split file names (`getFileNameAndType`);
- the small reflection-based ORM:
  - the Java-type-to-SQLite-type table;
  - table and column naming;
  - SQL literal rendering;
  - the insert-or-update decision of `save` and the statement of `delete`;
  - Boolean decoding;
  - the `CREATE TABLE` text, the parser that reads it back from
    `sqlite_master`, and the "columns to add" diff of `updateTableStruct`;
- the peer upsert keyed by client code, in the `/exchange` handler and in
  `exchangeDevice`;
- the inbound message record of `/message`, and the 404 rule of
  `/download` and `/downloadInfo`;
- `downloadMessageFile`: the collision-free destination name, the body
  loop that appends packets and reports progress, and the fields set on
  completion;
- the hex rendering of the MD5 digest in `hash`;
- the mDNS start guards and the self-filters;
- the 200 ms progress throttle;
- the `Event` handler registry.

The repository has two parallel source trees. The newer one lives under
`com/freefjay/localshare/desktop/`; the older one sits at the root of the
Kotlin sources. `Common.Variant` (`Desktop` or `Legacy`) selects the tree
where the two behave differently:

- the Boolean arm of `queryList`: the newer tree tests the boxed
  `java.lang.Boolean` and decodes 0, 1 and anything else; the older tree
  tests the primitive `boolean` and never yields true;
- the primary-key suffix in `CREATE TABLE`;
- the filter on resolved mDNS events.

The newer `db.kt` imports `java.lang.Long`, `java.lang.Float` and
`java.lang.Double`, so its bare `Long::class.java`, `Float::class.java` and
`Double::class.java` name the boxed classes, the same ones the older tree
spells out. Both trees therefore read an entity's `id: Long?` back and write
a generated key back into it, and the upsert and the message record behave
alike in both.

The two `StrUtil.kt` copies share `toUnderCase` and `toFirstLower`, word for
word, and one model covers both. `getFileNameAndType`, `toDate` and
`readableFileSize` exist only in the newer copy. The older tree's copies of
the remaining rules behave like the newer ones, and the same members model
them. The older spans are:

- `src/main/kotlin/util/StrUtil.kt:3-28`: the string helpers.
- `src/main/kotlin/util/db.kt:48-61`: the type table.
- `src/main/kotlin/util/db.kt:200-241`: `save`.
- `src/main/kotlin/util/db.kt:305-347`: create, parse and diff.
- `src/main/kotlin/Server.kt:41-103`: `/exchange`, `/message` and `/download`.
- `src/main/kotlin/Server.kt:125-155`: mDNS.
- `src/main/kotlin/Event.kt:1-14`: the registry.

Modules, one per concern:

- `Common`: `Option`, `Result`, `Variant`, and `Collect`, the first error
  of a run of results.
- `Chars`: ASCII character classes.
  - `\s` for Java regular expressions.
  - `Character.isWhitespace` for `trim`.
  - The line terminators that stop `.`.
- `Text`: the Kotlin library behaviour the parser relies on.
  - `contains` and `indexOf`.
  - `trim`.
  - `split(",")`, which keeps empty pieces.
  - `split("\\s+".toRegex())`.
- `StrUtil`: the string helpers.
- `Orm`: types, naming, literals, `save`, `delete` and Boolean decoding.
- `Schema`: `updateTableStruct`.
- `Devices`: the device table and the upsert.
- `Messages`: `/message`, `/download` and `/downloadInfo`.
- `Download`: `downloadMessageFile`.
- `Digest`: the digest text.
- `Discovery`: mDNS.
- `Progress`: the throttle.
- `Events`: the registry.

Environment facts are parameters:

- the existing file names;
- the clock;
- HTTP replies;
- the digest bytes;
- the key SQLite generates;
- which handlers throw.

Behaviour of the code worth knowing:

- A handler that throws stops the remaining handlers of a `doAction`.
  There is no isolation (`Events.Dispatch`).
- The download is one sequential GET that appends to the file. There are
  no chunks, no resume and no hash check. A short body still counts as a
  success (`Download.ShortBodyStillSucceeds`).
- Repeated exchanges create duplicate rows when the client code is null
  (`Devices.NullCodeAddsRowEachTime`).
- The older tree exchanges with every resolved service, its own included
  (`Discovery.LegacyExchangesWithSelf`).
- A received file is downloaded only when the sending device is already
  known as well as the file name being present
  (`Messages.TextMessageNotDownloaded` and
  `Download.DownloadMessageFile`).

## Model

| member | source | states |
|---|---|---|
| StrUtil.ToUnderCase | src/main/kotlin/com/freefjay/localshare/desktop/util/StrUtil.kt:10-28 | the converted name has no upper-case letter, is never shorter than the input, and a name without upper-case letters comes back unchanged |
| StrUtil.UnderCaseFrom | src/main/kotlin/com/freefjay/localshare/desktop/util/StrUtil.kt:10-28 | the converted text never contains an upper-case letter and is never shorter than the input |
| StrUtil.ToUnderCaseLoop | src/main/kotlin/com/freefjay/localshare/desktop/util/StrUtil.kt:10-28 | the character loop with its `pre` variable (starting at NUL) produces exactly the recursive definition's text, with no upper-case letter left |
| StrUtil.UnderCaseUpperStep | src/main/kotlin/com/freefjay/localshare/desktop/util/StrUtil.kt:17-21 | an upper-case letter becomes its lower-case form preceded by `_`, and the underscore is omitted exactly when the previous input character is `_` |
| StrUtil.UnderCaseFixedPoint | src/main/kotlin/com/freefjay/localshare/desktop/util/StrUtil.kt:22-24 | a text without upper-case letters is returned unchanged, whatever the previous character |
| StrUtil.LeadingUpperGetsUnderscore | src/main/kotlin/com/freefjay/localshare/desktop/util/StrUtil.kt:13-21 | because `pre` starts as NUL, a leading upper-case letter yields a leading `_` followed by its lower-case form |
| StrUtil.UnderCaseIdempotent | src/main/kotlin/com/freefjay/localshare/desktop/util/StrUtil.kt:15-26 | the result has no upper-case letter, so converting it again changes nothing |
| StrUtil.UnderCaseAppend | src/main/kotlin/com/freefjay/localshare/desktop/util/StrUtil.kt:15-26 | converting a concatenation converts each part in turn, the second judged against the last character of the first |
| StrUtil.UnderCaseLength | src/main/kotlin/com/freefjay/localshare/desktop/util/StrUtil.kt:15-26 | every input character is kept; the output is longer by exactly the number of underscores inserted before upper-case letters |
| StrUtil.ToFirstLower | src/main/kotlin/com/freefjay/localshare/desktop/util/StrUtil.kt:30-35 | the empty text is unchanged; otherwise the length is kept, index 0 is lower-cased and the rest is untouched |
| StrUtil.TableNameNoLeadingUnderscore | src/main/kotlin/com/freefjay/localshare/desktop/util/db.kt:320 | a class name that does not start with `_` gives a table name that does not start with `_` either |
| StrUtil.LastIndexOf | src/main/kotlin/com/freefjay/localshare/desktop/util/StrUtil.kt:54 | the index of the last occurrence of the character, and -1 exactly when it does not occur |
| StrUtil.FileNameAndType | src/main/kotlin/com/freefjay/localshare/desktop/util/StrUtil.kt:50-56 | null gives null; a name without `.` gives the whole name and no type; otherwise the type has no `.` and base, `.` and type put back together give the name |
| StrUtil.SplitThenJoin | src/main/kotlin/com/freefjay/localshare/desktop/util/StrUtil.kt:54-55 | splitting any file name and joining the parts gives the name back, and the split is canonical |
| StrUtil.JoinThenSplit | src/main/kotlin/com/freefjay/localshare/desktop/util/StrUtil.kt:54-55 | joining a canonical base and type and splitting again gives the same base and type |
| Text.SplitOn | src/main/kotlin/com/freefjay/localshare/desktop/util/db.kt:352 | `split(",")` keeps every piece, empty ones included: no piece has a comma, and joining them with commas restores the text |
| Text.SplitJoinComma | src/main/kotlin/com/freefjay/localshare/desktop/util/db.kt:352 | splitting text joined with `", "` on commas gives the pieces back, each but the first with its leading blank |
| Text.Trim | src/main/kotlin/com/freefjay/localshare/desktop/util/db.kt:353 | `trim` returns a slice of the input whose ends are not whitespace, with only whitespace before and after it, and is empty exactly when the input is all whitespace |
| Text.TrimSurrounded | src/main/kotlin/com/freefjay/localshare/desktop/util/db.kt:353 | `trim` removes exactly the whitespace around a core whose ends are not whitespace |
| Text.SplitRuns | src/main/kotlin/com/freefjay/localshare/desktop/util/db.kt:353 | `split("\\s+".toRegex())` yields at least one piece, and no piece contains a `\s` character |
| Text.SplitRunsTwoWords | src/main/kotlin/com/freefjay/localshare/desktop/util/db.kt:353-355 | splitting `a b…` on runs of `\s` yields at least two tokens, the first two being the two words |
| Text.IndexOf | src/main/kotlin/com/freefjay/localshare/desktop/util/db.kt:347-349 | `find` locates the first occurrence of the literal table name, and finds none exactly when the name does not occur |
| Orm.SqliteType | src/main/kotlin/com/freefjay/localshare/desktop/util/db.kt:51-64 | String and Date map to TEXT; boxed Integer, Long and Boolean map to INTEGER; boxed Float and Double map to REAL; BigDecimal maps to NUMERIC; ByteArray maps to BLOB; every primitive type and every other class maps to null (each case stated as an if-and-only-if) |
| Orm.HasReadArm | src/main/kotlin/com/freefjay/localshare/desktop/util/db.kt:191-201 | `queryList` has an arm only for a type `save` can store, except the older tree's arm for the primitive Boolean (src/main/kotlin/util/db.kt:164) |
| Orm.StoredTypesReadBack | src/main/kotlin/com/freefjay/localshare/desktop/util/db.kt:191-201 | the newer `queryList` reads back exactly the types `save` can store, `Long?` ids included (the boxed classes, through the imports at db.kt:9-11); the older one (src/main/kotlin/util/db.kt:155-165) reads back every stored type except the boxed Boolean |
| Orm.ColumnName | src/main/kotlin/com/freefjay/localshare/desktop/util/db.kt:324 | a non-blank annotation value is the column name as given; otherwise the name is the snake-cased parameter name, with no upper-case letter and at least as long |
| Orm.TableName | src/main/kotlin/com/freefjay/localshare/desktop/util/db.kt:320 | the table name has no upper-case letter, is at least as long as the class name, and starts with the class name's first letter lowered when that is not `_` |
| Orm.ResolveColumn | src/main/kotlin/com/freefjay/localshare/desktop/util/db.kt:321-330 | it throws exactly when there is neither a non-blank annotated type nor a mapped type; otherwise the annotated type wins over the mapped one, the name follows the annotation-or-snake-case rule, and the key flag is the annotation's |
| Orm.ResolveColumns | src/main/kotlin/com/freefjay/localshare/desktop/util/db.kt:321-330 | the columns in parameter order, one per parameter; it fails exactly when some parameter fails |
| Orm.ResolveTableInfo | src/main/kotlin/com/freefjay/localshare/desktop/util/db.kt:314-332 | the table name is the snake-cased first-lowered class name; the columns correspond one-to-one with the constructor parameters; it throws exactly when a parameter has no type |
| Orm.ReadBackColumnName | src/main/kotlin/com/freefjay/localshare/desktop/util/db.kt:324 | the column name is the snake-cased parameter name exactly when there is no annotation, the annotation value is blank, or the value already equals that name |
| Orm.Literal | src/main/kotlin/com/freefjay/localshare/desktop/util/db.kt:221-234 | a null value renders as `null`; a TEXT column renders its text between double quotes with no escaping, a Date in formatted form; a primitive Boolean renders as 1 or 0; anything else renders as its own text |
| Orm.PrimaryKeyIndex | src/main/kotlin/com/freefjay/localshare/desktop/util/db.kt:243 | `find` returns the first column flagged as key, or none when no column is |
| Orm.SaveStatement | src/main/kotlin/com/freefjay/localshare/desktop/util/db.kt:246-268 | INSERT exactly when there is no key column or the key value is null, listing every column and its literal in order; otherwise UPDATE of every column keyed on the key column's literal; the generated key is written back exactly after an INSERT into a mutable key whose type is the boxed `Long` (db.kt:261, boxed through the import at db.kt:11; src/main/kotlin/util/db.kt:225), when the key is not -1 |
| Orm.Save | src/main/kotlin/com/freefjay/localshare/desktop/util/db.kt:236-277 | `save` throws exactly when resolving the table throws, and otherwise issues the statement above |
| Orm.WritesBackBoxedKey | src/main/kotlin/com/freefjay/localshare/desktop/util/db.kt:254-263 | an insert writes the generated key back into a mutable `Long?` key exactly when the driver does not report -1, and leaves an immutable or otherwise typed key alone; the older tree does the same (src/main/kotlin/util/db.kt:225) |
| Orm.Delete | src/main/kotlin/com/freefjay/localshare/desktop/util/db.kt:279-302 | a null id deletes nothing; otherwise it throws exactly when the table cannot be resolved, keys on the first key column (the text `null` when there is none), and quotes the id exactly for a TEXT key |
| Orm.DeleteTargetsSavedRow | src/main/kotlin/com/freefjay/localshare/desktop/util/db.kt:264-302 | for a row whose key holds a value, `save` issues an UPDATE and deleting by that value's text targets the same table, key column and key literal as the UPDATE's where-clause |
| Orm.GetInt | src/main/kotlin/com/freefjay/localshare/desktop/util/db.kt:200 | `getInt` reads NULL as 0 and any other value as the signed 32-bit number congruent to it modulo 2^32 |
| Orm.DecodeBoolean | src/main/kotlin/com/freefjay/localshare/desktop/util/db.kt:200 | the newer tree yields true exactly for an integer whose low 32 bits are 1; both trees yield false exactly for NULL or low bits 0; the older tree (src/main/kotlin/util/db.kt:164) never yields true |
| Orm.BooleanRoundTrip | src/main/kotlin/com/freefjay/localshare/desktop/util/db.kt:200 | the newer decoder reads a stored `true`/`false` back unchanged, and NULL as false |
| Orm.DesktopDecodeCases | src/main/kotlin/com/freefjay/localshare/desktop/util/db.kt:200 | the newer decoder yields true exactly for values whose low 32 bits are 1, and false exactly for NULL or low bits 0 |
| Orm.LegacyBooleanLosesTrue | src/main/kotlin/util/db.kt:164 | the older decoder never yields true, so a stored true reads back as null; its false cases coincide with the newer decoder's |
| Orm.ReadBooleanParam | src/main/kotlin/com/freefjay/localshare/desktop/util/db.kt:191-201 | a `Boolean?` parameter never makes the read throw; only in the newer tree can it read back as true, and the older tree reads it as null whatever is stored; a non-null `Boolean` makes the read throw always in the newer tree and in the older one exactly when the stored value is not 0 |
| Orm.NullableBooleanRoundTrip | src/main/kotlin/com/freefjay/localshare/desktop/util/db.kt:200 | the newer tree reads a stored `Boolean?` property back unchanged, without throwing |
| Orm.LegacyNullableBooleanReadsNull | src/main/kotlin/util/db.kt:155-165 | in the older tree a `Boolean?` property such as `DeviceMessage.isFile` matches no arm and reads back as null; a non-null one reads false back, and a stored true hands null to the constructor, which throws |
| Orm.OneHump | src/main/kotlin/com/freefjay/localshare/desktop/util/StrUtil.kt:17-21 | a lower-case word followed by one capitalised word becomes the two words joined by `_`, the capital lowered |
| Orm.DeviceTableName | src/main/kotlin/com/freefjay/localshare/desktop/util/db.kt:320 | class `Device` is stored in table `device` |
| Orm.DeviceMessageTableName | src/main/kotlin/com/freefjay/localshare/desktop/util/db.kt:320 | class `DeviceMessage` is stored in table `device_message` |
| Orm.ClientCodeColumnName | src/main/kotlin/com/freefjay/localshare/desktop/util/db.kt:324 | property `clientCode` is stored in column `client_code` |
| Orm.DeviceResolves | src/main/kotlin/com/freefjay/localshare/desktop/model/Device.kt:5-16 | every property of the newer `Device` entity has a column type, so resolving the table never throws |
| Orm.FilePartResolves | src/main/kotlin/com/freefjay/localshare/desktop/model/FilePart.kt:5-11 | the `FilePart` entity resolves without throwing |
| Orm.SysInfoResolves | src/main/kotlin/com/freefjay/localshare/desktop/model/SysInfo.kt:5-9 | the `SysInfo` entity resolves without throwing |
| Schema.CreateTableSql | src/main/kotlin/com/freefjay/localshare/desktop/util/db.kt:340-342 | the statement starts with `create table`, the table name and `(`, ends with `)`, and SQLite stores it with the same text after its own `CREATE TABLE` prefix |
| Schema.StoredSql | src/main/kotlin/com/freefjay/localshare/desktop/util/db.kt:337-346 | the text SQLite keeps in `sqlite_master` has the issued statement's length and differs from it only in the case of the leading `create table`; any other text is kept as is |
| Schema.ColumnDefinitions | src/main/kotlin/com/freefjay/localshare/desktop/util/db.kt:341 | one definition per declared column, in declaration order |
| Schema.KeySuffixParts | src/main/kotlin/util/db.kt:305 | the key suffix is ` primary key` in the older tree and ` primary key AUTOINCREMENT ` in the newer one: the words start with a blank, say `primary`, and end in a non-blank |
| Schema.LineEnd | src/main/kotlin/com/freefjay/localshare/desktop/util/db.kt:347 | `.` matches up to, and not including, the next line terminator |
| Schema.MatchGroup | src/main/kotlin/com/freefjay/localshare/desktop/util/db.kt:347-350 | the pattern finds a match exactly when the table name occurs in the stored text |
| Schema.ParseColumn | src/main/kotlin/com/freefjay/localshare/desktop/util/db.kt:353-357 | a piece throws exactly when its trimmed text has fewer than two tokens; the key flag holds exactly when the lower-cased piece contains `primary` |
| Schema.ParseColumns | src/main/kotlin/com/freefjay/localshare/desktop/util/db.kt:352-358 | the pieces parse in order, one column each, and the whole fails exactly when some piece fails |
| Schema.ReadColumns | src/main/kotlin/com/freefjay/localshare/desktop/util/db.kt:347-358 | when the table name does not occur in the stored text, nothing is read and nothing fails |
| Schema.ColumnsToAdd | src/main/kotlin/com/freefjay/localshare/desktop/util/db.kt:364-369 | a declared column is added exactly when no prior column has its name |
| Schema.ColumnsToAddAppend | src/main/kotlin/com/freefjay/localshare/desktop/util/db.kt:365-369 | the filter keeps declaration order: the columns to add from a concatenation are those of each part in turn |
| Schema.LastWithName | src/main/kotlin/com/freefjay/localshare/desktop/util/db.kt:360-363 | the map entry exists exactly for the prior names, and it is a prior column of that name |
| Schema.Warnings | src/main/kotlin/com/freefjay/localshare/desktop/util/db.kt:370-375 | a declared column draws a warning exactly when a prior column of its name differs in trimmed lower-case type or key flag |
| Schema.WarnedNotAdded | src/main/kotlin/com/freefjay/localshare/desktop/util/db.kt:366-383 | a column that only draws a warning is never added; nothing is altered or dropped |
| Schema.Sync | src/main/kotlin/com/freefjay/localshare/desktop/util/db.kt:334-386 | a table is created exactly when no `sqlite_master` row exists; a failure needs stored text that names the table; stored text that is null or lacks the name changes nothing; every added column is a declared one |
| Schema.AlterSql | src/main/kotlin/com/freefjay/localshare/desktop/util/db.kt:379 | the statement starts with `alter table <name> add column `, and for a column the parser can recover, the definition after that head parses back to the column's name, type and key flag |
| Schema.ParseAddedDefinition | src/main/kotlin/com/freefjay/localshare/desktop/util/db.kt:353-356 | the definition an `alter table` carries, with `primary key` or a trailing blank, parses back to the column it adds |
| Schema.ParseDefinition | src/main/kotlin/com/freefjay/localshare/desktop/util/db.kt:353-356 | one generated column definition, with or without the blank after a comma, parses back to the column's name, type and key flag |
| Schema.MatchStoredText | src/main/kotlin/com/freefjay/localshare/desktop/util/db.kt:347-350 | on stored `CREATE TABLE name(…)` text the pattern captures exactly the parenthesised column list |
| Schema.GroupOfCreated | src/main/kotlin/com/freefjay/localshare/desktop/util/db.kt:341-350 | the pattern captures the parenthesised list of the generated CREATE text |
| Schema.PiecesParse | src/main/kotlin/com/freefjay/localshare/desktop/util/db.kt:352-358 | the comma-separated pieces of the generated list parse back to the declared columns |
| Schema.ReadBackCreated | src/main/kotlin/com/freefjay/localshare/desktop/util/db.kt:341-358 | round trip: reading the stored text of a created table recovers every declared column's name, type and key flag, in order, in both trees (names and types without blanks, commas or `primary`) |
| Schema.NothingToAddAgainstOwnColumns | src/main/kotlin/com/freefjay/localshare/desktop/util/db.kt:360-369 | diffing columns against their own read-back adds nothing |
| Schema.SyncUnchangedAddsNothing | src/main/kotlin/com/freefjay/localshare/desktop/util/db.kt:334-386 | synchronising an unchanged declaration against its own stored table adds no column |
| Schema.SyncAddsNewColumns | src/main/kotlin/com/freefjay/localshare/desktop/util/db.kt:364-383 | after columns with new names are appended to a declaration, synchronising adds exactly those columns, in order |
| Schema.KeepAllNew | src/main/kotlin/com/freefjay/localshare/desktop/util/db.kt:364-369 | columns whose names are all new are all added, in order |
| Devices.FindByCode | src/main/kotlin/com/freefjay/localshare/desktop/Server.kt:51 | the first row whose client code equals the interpolated code text; none exactly when no row matches |
| Devices.UpdateById | src/main/kotlin/com/freefjay/localshare/desktop/util/db.kt:264-268 | the UPDATE keyed on the id: same length; exactly the rows sharing the row's id are replaced by it, the others untouched; the row is present afterwards exactly when some row had its id, and nothing changes when none did |
| Devices.Upsert | src/main/kotlin/com/freefjay/localshare/desktop/Server.kt:45-63 | the saved row has all eight descriptor fields of the request; a matched row with an id keeps it and its position, the row count is unchanged, and (ids unique) every other row is untouched; otherwise one row with the generated id is appended; keyed, unique ids stay so; the older handler (src/main/kotlin/Server.kt:41-58) is the same |
| Devices.UpsertIgnoresRequestId | src/main/kotlin/com/freefjay/localshare/desktop/Server.kt:48 | the id in the request has no effect on the outcome |
| Devices.UpsertRepeatStable | src/main/kotlin/com/freefjay/localshare/desktop/Server.kt:45-63 | a second exchange with the same non-null client code and descriptor returns the same table and row as the first, in both trees (src/main/kotlin/Server.kt:41-58) |
| Devices.UpsertSameCodeStable | src/main/kotlin/com/freefjay/localshare/desktop/Server.kt:45-63 | a second exchange with the same non-null client code and any other fields keeps the row count, keeps the row's id, gives it the new descriptor, and leaves every other row untouched, in both trees (src/main/kotlin/Server.kt:41-58) |
| Devices.NullCodeAddsRowEachTime | src/main/kotlin/com/freefjay/localshare/desktop/Server.kt:51 | in both trees, with a null client code the lookup searches for the text `null`, never finds the row it stored, and each exchange adds another row |
| Devices.ExchangeDevice | src/main/kotlin/util/Tool.kt:83-119 | nothing happens exactly when ip or port is null or the reply is not 200; otherwise the reply's descriptor is upserted and returned |
| Devices.ExchangeTwiceExample | src/main/kotlin/util/Tool.kt:97-114 | a second exchange with the same code, a new name and a new port updates the one row in place, keeping id 1 |
| Digest.ToHex | src/main/kotlin/util/Tool.kt:134 | `toString(16)`: one digit exactly below 16, else the digits of the quotient followed by the digit of the remainder |
| Digest.ByteTextAsWritten | src/main/kotlin/util/Tool.kt:134 | a byte 0..127 gives two lower-case digits; a byte -128..-1 gives only its low digit |
| Digest.HashTextAsWritten | src/main/kotlin/util/Tool.kt:132-136 | the digest text has between one and two characters per byte, all of them lower-case hexadecimal digits |
| Digest.HashTextAsWrittenLength | src/main/kotlin/util/Tool.kt:133-135 | the digest text has two characters per non-negative byte and one per negative byte |
| Digest.HashTextAsWrittenAppend | src/main/kotlin/util/Tool.kt:133-135 | the text of a concatenation is the concatenation of the texts |
| Digest.HashTextAsWrittenCollides | src/main/kotlin/util/Tool.kt:133-135 | two different 16-byte digests render to the same text |
| Digest.ByteTextAgrees | src/main/kotlin/util/Tool.kt:134 | the rendering as written agrees with two-digit hex exactly on non-negative bytes |
| Digest.HashText | src/main/kotlin/util/Tool.kt:133-135 | the corrected rendering has exactly two characters per byte |
| Digest.HashTextRoundTrip | src/main/kotlin/util/Tool.kt:133-135 | the corrected text parses back to the digest bytes |
| Digest.Render | src/main/kotlin/util/Tool.kt:133-135 | the rendering as written has two characters per non-negative byte and one per negative byte; the two-digit rendering has two per byte and parses back to the bytes |
| Digest.HashTextInjective | src/main/kotlin/util/Tool.kt:133-135 | different digests give different corrected texts |
| Messages.ReceiveMessage | src/main/kotlin/com/freefjay/localshare/desktop/Server.kt:73-94 | the record is of type `receive`, takes `oppositeId` from `sendId`, copies content, file name and size, and is stamped with the clock; the sender is the first device matching the client code, none exactly when no device matches; the recorded device id is that device's id, or null without one; the older handler (src/main/kotlin/Server.kt:67-80) is the same |
| Messages.MessageAfterExchange | src/main/kotlin/com/freefjay/localshare/desktop/Server.kt:45-85 | a message from a peer that has just exchanged names the row that exchange saved as its sender and records its id, in both trees (src/main/kotlin/Server.kt:41-79) |
| Messages.TextMessageNotDownloaded | src/main/kotlin/util/Tool.kt:28 | a message without a file name never starts a download |
| Messages.LookupMessage | src/main/kotlin/com/freefjay/localshare/desktop/Server.kt:97-98 | a non-numeric id throws; a missing id finds nothing; a number finds a message exactly when one has that id |
| Messages.FirstWithId | src/main/kotlin/com/freefjay/localshare/desktop/Server.kt:98 | `queryOne` finds a message with the id exactly when one exists |
| Messages.Locate | src/main/kotlin/com/freefjay/localshare/desktop/Server.kt:99-116 | "not found path" exactly when the message or its path is null; the file is served exactly when a regular file exists at the path; otherwise "not found file" |
| Messages.Download | src/main/kotlin/com/freefjay/localshare/desktop/Server.kt:96-117 | a non-numeric id fails; otherwise the answer is 404 exactly when the message is not servable, and a served path is a regular file |
| Messages.DownloadInfo | src/main/kotlin/com/freefjay/localshare/desktop/Server.kt:119-140 | the same 404 rule; a served answer carries the file's length and the digest text in the chosen rendering: as written it has one character per negative byte and two per other byte, and in the two-digit rendering it parses back to the digest |
| Messages.DownloadInfoAsWrittenAmbiguous | src/main/kotlin/com/freefjay/localshare/desktop/Server.kt:119-140 | with the rendering as written, two different files give the same `/downloadInfo` answer, while the two-digit rendering tells them apart |
| Messages.DownloadRoutesAgree | src/main/kotlin/com/freefjay/localshare/desktop/Server.kt:96-140 | `/download` and `/downloadInfo` give the same status and the same kind of 404 for every request |
| Messages.StaleFileNotFound | src/main/kotlin/com/freefjay/localshare/desktop/Server.kt:103-105 | a message whose path names a missing file or a directory answers 404 |
| Download.DecimalRoundTrip | src/main/kotlin/util/Tool.kt:40 | the index written into a candidate name reads back as the same number |
| Download.CandidateInjective | src/main/kotlin/util/Tool.kt:40 | different indices give different candidate names |
| Download.CandidateSplitsBack | src/main/kotlin/util/Tool.kt:37-40 | splitting a candidate name again gives `base(i)` and the original type: the index lands in the name, never in the type |
| Download.ChooseDestination | src/main/kotlin/util/Tool.kt:35-43 | the loop terminates; the chosen name is not an existing one; it is the file name itself when that is free, else `base(i).type` for the smallest free `i` from 1 |
| Download.ReceiveBody | src/main/kotlin/util/Tool.kt:53-70 | the file content is the concatenation of the packets, the size is its length, one progress event per non-empty packet, each reporting the running total and the announced length |
| Download.Complete | src/main/kotlin/util/Tool.kt:72-75 | success is set, the downloaded size is recorded, size becomes the Content-Length or 0 when absent, and the save path is set; no other field changes |
| Download.ShortBodyStillSucceeds | src/main/kotlin/util/Tool.kt:53-74 | a body shorter than announced is still marked successful, with the downloaded size differing from the size |
| Download.DownloadMessageFile | src/main/kotlin/util/Tool.kt:26-81 | nothing happens exactly when the sender or the file name is missing; otherwise the file gets a fresh name, the packets' content, and the message is completed with that size and path |
| Discovery.StartMDns | src/main/kotlin/com/freefjay/localshare/desktop/Server.kt:147-156 | nothing starts exactly when the own port or client code is null; otherwise the service type `_share._tcp.local.` is registered under the client code and port |
| Discovery.RequestsResolution | src/main/kotlin/com/freefjay/localshare/desktop/Server.kt:158-164 | resolution is requested exactly for an event of the own service type whose name differs from the own client code |
| Discovery.OnResolved | src/main/kotlin/com/freefjay/localshare/desktop/Server.kt:170-178 | the newer tree exchanges exactly with resolved peers of the own type and another name; the older tree (src/main/kotlin/Server.kt:148-155) exchanges with every resolved service; any exchange goes to the resolved address and port |
| Discovery.ListenersAgree | src/main/kotlin/com/freefjay/localshare/desktop/Server.kt:158-178 | in the newer tree a resolved event leads to an exchange exactly when `serviceAdded` would have requested its resolution; in the older tree (src/main/kotlin/Server.kt:136-155) every resolved event leads to one |
| Discovery.LegacyExchangesUnrequested | src/main/kotlin/Server.kt:136-155 | the own announcement is never requested for resolution, yet once resolved the older tree exchanges with it and the newer tree does not |
| Discovery.DesktopSkipsSelf | src/main/kotlin/com/freefjay/localshare/desktop/Server.kt:174 | the newer tree never exchanges with its own announcement |
| Discovery.LegacyExchangesWithSelf | src/main/kotlin/Server.kt:148-155 | the older tree exchanges with its own announcement |
| Discovery.ResolvedWithoutAddressSendsNothing | src/main/kotlin/util/Tool.kt:85-87 | a resolved event without an IPv4 address never leads to a request |
| Progress.Throttle | src/main/kotlin/Server.kt:118-120 | an event is forwarded exactly when more than 200 ms have passed since the last forward or it is final; forwarding remembers the second clock reading, taken after the UI block has run, and suppression leaves the remembered time |
| Progress.Decisions | src/main/kotlin/Server.kt:117-122 | one decision per event, and every final event is forwarded |
| Progress.DecisionAt | src/main/kotlin/Server.kt:117-122 | the decision for each event is the throttle applied to the remembered time, which is the post-block reading of the latest earlier forward |
| Progress.SuppressedAreRecent | src/main/kotlin/Server.kt:118 | a suppressed event is not final, and its tested reading falls within 200 ms of the remembered post-block reading of the last forward |
| Progress.LastForwardIsLatest | src/main/kotlin/Server.kt:118-120 | after a forward and a run of suppressions, the remembered time is the reading taken after that forward's block, not the reading it was tested with |
| Progress.ForwardsAreSpaced | src/main/kotlin/Server.kt:118-120 | unless the later one is final, two consecutive forwarded events are more than 200 ms apart counted from the end of the earlier one's block, and also by their tested readings when the clock does not run backwards across that block |
| Events.Register | src/main/kotlin/com/freefjay/localshare/desktop/Event.kt:14-15 | the handler is appended at the end, the rest unchanged |
| Events.FirstIndex | src/main/kotlin/com/freefjay/localshare/desktop/Event.kt:17 | `remove` targets the first occurrence of the handler |
| Events.Remove | src/main/kotlin/com/freefjay/localshare/desktop/Event.kt:16-18 | an absent handler changes nothing; otherwise exactly its first occurrence is removed, the handlers before and after keeping their order |
| Events.RegisterThenRemove | src/main/kotlin/com/freefjay/localshare/desktop/Event.kt:14-19 | registering a handler not yet present and calling its remover restores the list |
| Events.RegisterThenRemoveReorders | src/main/kotlin/com/freefjay/localshare/desktop/Event.kt:14-19 | registering an already present handler and calling its remover removes the earlier copy, so the order changes |
| Events.RemoveKeepsOthers | src/main/kotlin/Event.kt:10-12 | removal takes away one occurrence of the handler and keeps every other handler |
| Events.Dispatch | src/main/kotlin/com/freefjay/localshare/desktop/Event.kt:9-13 | handlers are called in registration order with the same data; a throwing handler stops the rest; with no throwing handler every handler is called once |

## Left out

- `TaskQueue.kt` in both trees: coroutine, channel and thread-local serialisation, whose point is concurrency.
- `transaction`, `runSql`, `queryMap`, `executeSql` and the JDBC plumbing: connections, commit and rollback are I/O. Entity declarations are explicit values in place of reflection.
- The Ktor server and client, the JmDNS calls, file creation and appends: I/O. Existing names, HTTP replies, packets and the clock are parameters.
- MD5 itself: a foreign call. The digest bytes are a parameter.
- `readableFileSize`, `toDate` and the `DateUtil.kt` formatters: floating point and `SimpleDateFormat`. A Date's formatted text is part of the value.
- The UI and build files (`Main.kt`, the context menus, `ActionButton.kt`, `build.gradle.kts`): presentation only.
- Unicode: character classes and case mapping are modelled over ASCII; other letters are neither upper case nor changed by lower-casing.
- The table-name pattern is matched as literal text. A table name with regular-expression metacharacters would behave differently.
- `queryList` for the other column types: which types have an arm is modelled (`Orm.HasReadArm`, `Orm.StoredTypesReadBack`), but the values those arms read (`getLong`, `getFloat`, a `BigDecimal`, a Date's parse) are handed through without a model, and `getInt` and `getLong` reading NULL as 0 is modelled only for the Boolean arm.
- Download.ChooseDestination: the older `downloadMessageFile` (src/main/kotlin/util/Tool.kt:37) calls a `getFileNameAndType` that the older tree does not define; the model uses the newer one (src/main/kotlin/com/freefjay/localshare/desktop/util/StrUtil.kt:50-56).
- Messages.LookupMessage: the newer tree's `DeviceMessage` entity is not part of this model, so which of its fields read back is not modelled; the lookup returns the stored row.
- Devices.Upsert: the older `model/Device.kt` declares `clientId` where the older handlers use `clientCode`; the model follows the handlers.
- Schema.AlterSql: the statement is built, not executed; whether SQLite accepts it (it refuses to add a `primary key` column) is not modelled.
- 64-bit `Long` overflow of ids, sizes and the progress counter: sizes are unbounded integers.
- The asynchronous launch of progress events and of `deviceEvent`: events are listed in the order they are produced.
- The download URL, `Content-Disposition` encoding and the text form of an `Inet4Address`: only their presence matters for the rules modelled.
- The file system is a map from path to directory or regular file (length and digest); concurrent changes are not modelled.
- Messages.DownloadInfo: the newer tree calls its own `hash` in `util/Tool.kt`, which is not part of this model; the as-written rendering follows the older tree's copy at src/main/kotlin/util/Tool.kt:133-135.
- Download.ReceiveBody: each progress event is listed with the total received when its packet was appended; the source launches the event asynchronously and reads the shared counter when the coroutine runs, so a report can carry a later total.
- Devices.FindByCode: the client code is spliced into the SQL between single quotes without escaping; a code containing `'` changes or breaks the query, and the model compares the code as plain text.
- Devices.Upsert: TEXT fields are spliced between double quotes without escaping; a descriptor field containing `"` breaks the statement, and the model stores every field as given.
- Events.Dispatch: the handler list is not synchronised; a handler registered or removed from another thread during a dispatch can throw `ConcurrentModificationException`, which the model does not represent.
- Orm.ReadBooleanParam: takes only Boolean-typed parameters; the other arms of `queryList` are I/O pass-through.

## Findings

| source | as written | input that shows it | evidently intended | confidence | as-written member | corrected member |
|---|---|---|---|---|---|---|
| src/main/kotlin/util/Tool.kt:133-135 | each byte is rendered as `(byte and 0xff.toByte()) + 0x100` in hex minus its first digit; `0xff.toByte()` is -1, so a negative byte stays negative and only its low digit is emitted | digests `[-16, -1, 0 × 14]` and `[15, -16, -16, 0 × 13]` both render as `0f` followed by 28 zeros | two lower-case hex digits per byte, so that the text identifies the digest | not executed | Digest.HashTextAsWrittenCollides | Digest.HashTextRoundTrip |
| src/main/kotlin/util/db.kt:164 | the older Boolean arm maps 0 to false and every other value to null, and it tests the primitive `boolean`, so a `Boolean?` property falls to the null arm | a stored `true` (1) in `DeviceMessage.isFile` reads back as null | 1 reads back as true, as in the newer tree's arm for the boxed type | not executed | Orm.LegacyNullableBooleanReadsNull | Orm.NullableBooleanRoundTrip |

=== FILE: chars.dfy ===
/**
 * Character classes used by the string helpers, restricted to ASCII.
 */
module Chars {

  /** `Character.isUpperCase` on ASCII. */
  predicate IsUpper(c: char) {
    'A' <= c <= 'Z'
  }

  /** `Character.toLowerCase` / `lowercaseChar` on ASCII. */
  function ToLower(c: char): (r: char)
    ensures !IsUpper(r)
    ensures IsUpper(c) ==> r as int == c as int + 32
    ensures !IsUpper(c) ==> r == c
  {
    if IsUpper(c) then (c as int + 32) as char else c
  }

  /** Kotlin's `Char.isWhitespace` on ASCII (used by `trim` and `isBlank`). */
  predicate IsWhitespace(c: char) {
    c == ' ' || '\t' <= c <= '\r' || '\U{001C}' <= c <= '\U{001F}'
  }

  /** The class `\s` of `java.util.regex` without the Unicode flag: `[ \t\n\x0B\f\r]`. */
  predicate IsRegexSpace(c: char) {
    c == ' ' || '\t' <= c <= '\r'
  }

  /** The characters at which `.` of `java.util.regex` stops. */
  predicate IsLineTerminator(c: char) {
    c == '\n' || c == '\r' || c == '\U{0085}' || c == '\U{2028}' || c == '\U{2029}'
  }

  /** A decimal digit. */
  predicate IsDigit(c: char) {
    '0' <= c <= '9'
  }
}

=== FILE: common.dfy ===
/**
 * Small shared vocabulary: Kotlin's nullable values, results that may carry
 * the exception the source would throw, and the two source trees whose rules
 * differ in a few places.
 */
module Common {

  /** A Kotlin nullable value: `None` is `null`. */
  datatype Option<+T> = None | Some(value: T) {
    /** Kotlin's `?:` with a default on the right. */
    function GetOr(default: T): T {
      if Some? then value else default
    }
  }

  /** The outcome of an operation that may throw in the source. */
  datatype Result<+T, +E> = Ok(value: T) | Err(error: E)

  /**
   * The repository carries two parallel source trees:
   * `Desktop` is the newer one under `com/freefjay/localshare/desktop/`,
   * `Legacy` is the older one at the root of the Kotlin sources.
   */
  datatype Variant = Desktop | Legacy

  /** The values of a run of results, or the first error among them. */
  function Collect<T, E>(rs: seq<Result<T, E>>): (r: Result<seq<T>, E>)
    ensures r.Ok? ==> |r.value| == |rs| && forall i :: 0 <= i < |rs| ==> rs[i] == Ok(r.value[i])
    ensures r.Ok? <==> forall i :: 0 <= i < |rs| ==> rs[i].Ok?
    ensures r.Err? ==> exists i :: 0 <= i < |rs| && rs[i] == Err(r.error) && forall j :: 0 <= j < i ==> rs[j].Ok?
  {
    if |rs| == 0 then Ok([])
    else if rs[0].Err? then Err(rs[0].error)
    else
      var rest := Collect(rs[1..]);
      assert forall i :: 1 <= i < |rs| ==> rs[1..][i - 1] == rs[i];
      if rest.Err? then
        Err(rest.error)
      else
        var r := [rs[0].value] + rest.value;
        assert forall i :: 1 <= i < |rs| ==> r[i] == rest.value[i - 1];
        Ok(r)
  }
}

=== FILE: devices.dfy ===
/**
 * The peer table and the upsert keyed by client code that both `/exchange`
 * handlers and `exchangeDevice` perform: look up the first device whose
 * `client_code` equals the received one, reuse it (and its id) or start a
 * new one, overwrite its eight descriptor fields, and save it.
 */
module Devices {
  import opened Common

  /** A row of the `device` table (the newer tree's field names). */
  datatype Device = Device(
    id: Option<int>,
    clientCode: Option<string>,
    name: Option<string>,
    ip: Option<string>,
    port: Option<int>,
    channelType: Option<string>,
    osName: Option<string>,
    networkType: Option<string>,
    wifiName: Option<string>)

  /** `Device()`: every field null. */
  const EmptyDevice: Device := Device(None, None, None, None, None, None, None, None, None)

  /** The eight descriptor fields agree (the id may differ). */
  predicate SameDescriptor(a: Device, b: Device) {
    && a.clientCode == b.clientCode && a.name == b.name && a.ip == b.ip && a.port == b.port
    && a.channelType == b.channelType && a.osName == b.osName
    && a.networkType == b.networkType && a.wifiName == b.wifiName
  }

  /** Copy the request's descriptor fields onto a row, keeping the row's id. */
  function Describe(target: Device, request: Device): (r: Device)
    ensures r.id == target.id
    ensures SameDescriptor(r, request)
  {
    request.(id := target.id)
  }

  /**
   * The text the lookup compares with: the code interpolated into
   * `'${clientCode}'`, so a null code becomes the four letters `null`.
   */
  function CodeText(code: Option<string>): string {
    match code
    case None => "null"
    case Some(c) => c
  }

  /** `client_code = '<text>'` holds: a NULL column never equals anything. */
  predicate MatchesCode(d: Device, code: Option<string>) {
    d.clientCode == Some(CodeText(code))
  }

  /** `queryList(...).firstOrNull()` by client code: the first matching row. */
  function FindByCode(table: seq<Device>, code: Option<string>): (r: Option<nat>)
    ensures r.Some? ==> r.value < |table| && MatchesCode(table[r.value], code)
    ensures r.Some? ==> forall j :: 0 <= j < r.value ==> !MatchesCode(table[j], code)
    ensures r.None? <==> forall j :: 0 <= j < |table| ==> !MatchesCode(table[j], code)
  {
    if |table| == 0 then None
    else if MatchesCode(table[0], code) then Some(0)
    else
      match FindByCode(table[1..], code)
      case None => None
      case Some(k) => Some(k + 1)
  }

  /** `update device set ... where id = <id>`: every row with that id becomes `row`. */
  function UpdateById(table: seq<Device>, row: Device): (r: seq<Device>)
    ensures |r| == |table|
    ensures forall j :: 0 <= j < |table| ==> r[j] == (if table[j].id == row.id then row else table[j])
    ensures row in r <==> exists j :: 0 <= j < |table| && table[j].id == row.id
    ensures (forall j :: 0 <= j < |table| ==> table[j].id != row.id) ==> r == table
  {
    seq(|table|, j requires 0 <= j < |table| => if table[j].id == row.id then row else table[j])
  }

  datatype UpsertResult = UpsertResult(table: seq<Device>, saved: Device)

  /** Every row has an id (the key column is an INTEGER PRIMARY KEY). */
  predicate AllKeyed(table: seq<Device>) {
    forall j :: 0 <= j < |table| ==> table[j].id.Some?
  }

  /** No two rows share an id. */
  predicate UniqueIds(table: seq<Device>) {
    forall j, k :: 0 <= j < k < |table| ==> table[j].id != table[k].id
  }

  /** The id the database hands out is not in use. */
  predicate FreshId(table: seq<Device>, id: int) {
    forall j :: 0 <= j < |table| ==> table[j].id != Some(id)
  }

  /** The first row with the request's code, when it has an id: the row `save` updates. */
  predicate UpdatesRow(table: seq<Device>, request: Device) {
    var found := FindByCode(table, request.clientCode);
    found.Some? && table[found.value].id.Some?
  }

  /**
   * The upsert. A matched row with an id (every `Long?` id reads back
   * through `queryList`'s boxed `Long` arm) is updated in place: it keeps its
   * id and position, takes every descriptor field from the request, and in a
   * table with unique ids no other row changes. Otherwise `save` inserts one
   * row at the end, whose id the database assigns (`generatedId`) and `save`
   * writes back into the `Long?` key.
   */
  function Upsert(table: seq<Device>, request: Device, generatedId: int): (r: UpsertResult)
    ensures SameDescriptor(r.saved, request)
    ensures UpdatesRow(table, request) ==>
      var i := FindByCode(table, request.clientCode).value;
      && |r.table| == |table|
      && r.saved.id == table[i].id
      && r.table[i] == r.saved
      && (UniqueIds(table) ==> forall j :: 0 <= j < |table| && j != i ==> r.table[j] == table[j])
    ensures !UpdatesRow(table, request) ==>
      r.table == table + [r.saved] && r.saved.id == Some(generatedId)
    ensures AllKeyed(table) && UniqueIds(table) && FreshId(table, generatedId) ==>
      AllKeyed(r.table) && UniqueIds(r.table)
  {
    var found := FindByCode(table, request.clientCode);
    if found.Some? && table[found.value].id.Some? then
      var saved := Describe(table[found.value], request);
      UpsertResult(UpdateById(table, saved), saved)
    else
      var saved := Describe(EmptyDevice.(id := Some(generatedId)), request);
      UpsertResult(table + [saved], saved)
  }

  /** The id carried in the request is discarded. */
  lemma UpsertIgnoresRequestId(table: seq<Device>, request: Device, otherId: Option<int>, generatedId: int)
    ensures Upsert(table, request.(id := otherId), generatedId) == Upsert(table, request, generatedId)
  {
  }

  /**
   * Exchanging twice with a peer that sends a code leaves
   * the table as the first exchange left it: the row count does not grow
   * after the first.
   */
  lemma {:induction false} UpsertRepeatStable(table: seq<Device>, request: Device, id1: int, id2: int)
    requires request.clientCode.Some?
    requires AllKeyed(table) && UniqueIds(table) && FreshId(table, id1)
    ensures var once := Upsert(table, request, id1);
      Upsert(once.table, request, id2) == once
  {
    var once := Upsert(table, request, id1);
    var found := FindByCode(table, request.clientCode);
    var i := if found.Some? then found.value else |table|;
    assert once.table[i] == once.saved;
    assert MatchesCode(once.saved, request.clientCode);
    forall j | 0 <= j < i
      ensures !MatchesCode(once.table[j], request.clientCode)
    {
      assert once.table[j] == table[j];
    }
    assert FindByCode(once.table, request.clientCode) == Some(i);
    var again := Describe(once.table[i], request);
    assert again == once.saved;
    assert UpdateById(once.table, again) == once.table;
  }

  /**
   * A second exchange with the same code, whatever else
   * it carries (a new address, port or name), updates the row the first one
   * left: the row count stays, the row keeps its id and takes the new
   * descriptor, and every other row is untouched.
   */
  lemma {:induction false} UpsertSameCodeStable(table: seq<Device>, r1: Device, r2: Device, id1: int, id2: int)
    requires r1.clientCode.Some? && r2.clientCode == r1.clientCode
    requires AllKeyed(table) && UniqueIds(table) && FreshId(table, id1)
    ensures var once := Upsert(table, r1, id1);
      var twice := Upsert(once.table, r2, id2);
      && |twice.table| == |once.table|
      && twice.saved.id == once.saved.id
      && SameDescriptor(twice.saved, r2)
      && twice.saved in twice.table
      && forall j :: 0 <= j < |once.table| && once.table[j] != once.saved ==> twice.table[j] == once.table[j]
  {
    var once := Upsert(table, r1, id1);
    var found := FindByCode(table, r1.clientCode);
    var i := if found.Some? then found.value else |table|;
    assert once.table[i] == once.saved;
    assert MatchesCode(once.saved, r2.clientCode);
    forall j | 0 <= j < i
      ensures !MatchesCode(once.table[j], r2.clientCode)
    {
      assert once.table[j] == table[j];
    }
    assert FindByCode(once.table, r2.clientCode) == Some(i);
    assert once.saved.id.Some?;
  }

  /**
   * A peer that sends no code is looked up by the text `null`, which its own
   * row (stored with a NULL code) never matches: every such exchange adds a row.
   */
  lemma NullCodeAddsRowEachTime(table: seq<Device>, request: Device, id1: int, id2: int)
    requires request.clientCode.None?
    requires forall j :: 0 <= j < |table| ==> table[j].clientCode != Some("null")
    ensures var once := Upsert(table, request, id1);
      |Upsert(once.table, request, id2).table| == |table| + 2
  {
    var once := Upsert(table, request, id1);
    assert forall j :: 0 <= j < |once.table| ==> !MatchesCode(once.table[j], request.clientCode);
  }

  /** The answer to the POST `exchangeDevice` makes, when it makes one. */
  datatype HttpReply = HttpReply(status: int, body: Device)

  const HttpOk: int := 200

  /**
   * `exchangeDevice` of the older tree: nothing is sent when the address or
   * port is missing, a non-OK answer yields null, and an OK answer's device
   * is upserted and returned as saved.
   */
  function ExchangeDevice(table: seq<Device>, ip: Option<string>, port: Option<int>, reply: HttpReply, generatedId: int): (r: Option<UpsertResult>)
    ensures r.None? <==> ip.None? || port.None? || reply.status != HttpOk
    ensures r.Some? ==> SameDescriptor(r.value.saved, reply.body)
    ensures r.Some? ==> r.value == Upsert(table, reply.body, generatedId)
  {
    if ip.None? || port.None? then None
    else if reply.status != HttpOk then None
    else Some(Upsert(table, reply.body, generatedId))
  }

  /** The example of a peer "abc" exchanging twice: one row, fields from the second request. */
  lemma ExchangeTwiceExample()
    ensures var first := Device(Some(7), Some("abc"), Some("laptop"), Some("10.0.0.2"), Some(8080), None, None, None, None);
      var second := first.(id := None, name := Some("desk"), port := Some(9090));
      var t1 := Upsert([], first, 1).table;
      var t2 := Upsert(t1, second, 2).table;
      && t1 == [first.(id := Some(1))]
      && t2 == [second.(id := Some(1))]
  {
    var first := Device(Some(7), Some("abc"), Some("laptop"), Some("10.0.0.2"), Some(8080), None, None, None, None);
    var second := first.(id := None, name := Some("desk"), port := Some(9090));
    var t1 := Upsert([], first, 1).table;
    assert t1 == [first.(id := Some(1))];
    assert FindByCode(t1, second.clientCode) == Some(0);
    assert t1[0].id == Some(1);
    assert UpdatesRow(t1, second);
    var saved := second.(id := Some(1));
    assert Describe(t1[0], second) == saved;
    assert UpdateById(t1, saved)[0] == saved;
  }
}

=== FILE: digest.dfy ===
/**
 * The text form of an MD5 digest built by `hash` in `util/Tool.kt`. Each
 * signed byte `b` is rendered as `(b + 0x100).toString(16).substring(1)`;
 * because `b and 0xff.toByte()` is still a signed byte, a negative byte
 * loses its high digit. The digest computation itself is an input here.
 */
module Digest {
  import opened Common

  /** A JVM `Byte`. */
  predicate IsByte(b: int) {
    -128 <= b < 128
  }

  predicate AllBytes(bytes: seq<int>) {
    forall i :: 0 <= i < |bytes| ==> IsByte(bytes[i])
  }

  /** A lower-case hexadecimal digit. */
  function HexDigit(d: nat): (c: char)
    requires d < 16
    ensures d < 10 ==> c == '0' + d as char
    ensures d >= 10 ==> c == 'a' + (d - 10) as char
  {
    if d < 10 then '0' + d as char else 'a' + (d - 10) as char
  }

  /** The value of a lower-case hexadecimal digit, if it is one. */
  function DigitValue(c: char): (r: int)
    ensures -1 <= r < 16
    ensures r >= 0 ==> HexDigit(r) == c
  {
    if '0' <= c <= '9' then (c - '0') as int
    else if 'a' <= c <= 'f' then (c - 'a') as int + 10
    else -1
  }

  lemma DigitRoundTrip(d: nat)
    requires d < 16
    ensures DigitValue(HexDigit(d)) == d
  {
  }

  /** `Int.toString(16)` for a non-negative value: no leading zeros. */
  function ToHex(n: nat): (r: string)
    ensures |r| >= 1
    ensures n < 16 <==> |r| == 1
    ensures n >= 16 ==> r[|r| - 1] == HexDigit(n % 16) && r[..|r| - 1] == ToHex(n / 16)
    decreases n
  {
    if n < 16 then [HexDigit(n)] else ToHex(n / 16) + [HexDigit(n % 16)]
  }

  /** The rendering of one byte, exactly as written. */
  function ByteTextAsWritten(b: int): (r: string)
    requires IsByte(b)
    ensures b >= 0 ==> r == [HexDigit(b / 16), HexDigit(b % 16)]
    ensures b < 0 ==> r == [HexDigit((b + 256) % 16)]
  {
    var t := ToHex(b + 0x100);
    assert b >= 0 ==> t == [HexDigit(1), HexDigit(b / 16), HexDigit(b % 16)] by {
      if b >= 0 {
        assert ToHex((b + 256) / 16) == [HexDigit(1), HexDigit(b / 16)] by {
          assert (b + 256) / 16 == 16 + b / 16;
        }
      }
    }
    assert b < 0 ==> t == [HexDigit((b + 256) / 16), HexDigit((b + 256) % 16)];
    t[1..]
  }

  /** Every character is a lower-case hexadecimal digit. */
  predicate IsHexText(s: string) {
    forall i :: 0 <= i < |s| ==> DigitValue(s[i]) >= 0
  }

  /** The digest text, exactly as written. */
  function HashTextAsWritten(bytes: seq<int>): (r: string)
    requires AllBytes(bytes)
    ensures |bytes| <= |r| <= 2 * |bytes|
    ensures IsHexText(r)
  {
    if |bytes| == 0 then "" else ByteTextAsWritten(bytes[0]) + HashTextAsWritten(bytes[1..])
  }

  function CountNonNegative(bytes: seq<int>): nat {
    if |bytes| == 0 then 0 else (if bytes[0] >= 0 then 1 else 0) + CountNonNegative(bytes[1..])
  }

  /** The text has two characters per non-negative byte and one per negative byte. */
  lemma {:induction false} HashTextAsWrittenLength(bytes: seq<int>)
    requires AllBytes(bytes)
    ensures |HashTextAsWritten(bytes)| == 2 * CountNonNegative(bytes) + (|bytes| - CountNonNegative(bytes))
  {
    if |bytes| > 0 {
      HashTextAsWrittenLength(bytes[1..]);
    }
  }

  /** The text of a concatenation is the concatenation of the texts. */
  lemma {:induction false} HashTextAsWrittenAppend(x: seq<int>, y: seq<int>)
    requires AllBytes(x) && AllBytes(y)
    ensures AllBytes(x + y)
    ensures HashTextAsWritten(x + y) == HashTextAsWritten(x) + HashTextAsWritten(y)
    decreases |x|
  {
    if |x| > 0 {
      assert (x + y)[1..] == x[1..] + y;
      HashTextAsWrittenAppend(x[1..], y);
    } else {
      assert x + y == y;
    }
  }

  lemma HashTextAsWrittenSingle(b: int)
    requires IsByte(b)
    ensures HashTextAsWritten([b]) == ByteTextAsWritten(b)
  {
    assert [b][1..] == [];
  }

  lemma HashTextAsWrittenThree(x: int, y: int, z: int)
    requires IsByte(x) && IsByte(y) && IsByte(z)
    ensures HashTextAsWritten([x, y, z]) == ByteTextAsWritten(x) + ByteTextAsWritten(y) + ByteTextAsWritten(z)
  {
    HashTextAsWrittenSingle(x);
    HashTextAsWrittenSingle(y);
    HashTextAsWrittenSingle(z);
    HashTextAsWrittenAppend([y], [z]);
    assert [y] + [z] == [y, z];
    HashTextAsWrittenAppend([x], [y, z]);
    assert [x] + [y, z] == [x, y, z];
  }

  /** A negative byte `d - 16` renders as the single digit `d`. */
  lemma HighNegativeText(d: int)
    requires 0 <= d < 16
    ensures ByteTextAsWritten(d - 16) == [HexDigit(d)]
  {
    assert (d - 16 + 256) % 16 == d;
  }

  /** A byte below 16 renders as `0` and its digit. */
  lemma SmallByteText(d: int)
    requires 0 <= d < 16
    ensures ByteTextAsWritten(d) == [HexDigit(0), HexDigit(d)]
  {
  }

  /** `[-16, d - 16, 0]` and `[d, -16, -16]` render alike. */
  lemma CollidingHeads(d: int)
    requires 0 <= d < 16
    ensures HashTextAsWritten([-16, d - 16, 0]) == HashTextAsWritten([d, -16, -16])
  {
    HighNegativeText(0);
    HighNegativeText(d);
    SmallByteText(0);
    SmallByteText(d);
    HashTextAsWrittenThree(-16, d - 16, 0);
    HashTextAsWrittenThree(d, -16, -16);
  }

  /** Two different 16-byte digests that render to the same text. */
  lemma HashTextAsWrittenCollides()
    ensures var a := [-16, -1] + seq(14, _ => 0);
      var b := [15, -16, -16] + seq(13, _ => 0);
      && AllBytes(a) && AllBytes(b) && |a| == |b| == 16 && a != b
      && HashTextAsWritten(a) == HashTextAsWritten(b)
  {
    var zeros := seq(13, _ => 0);
    var a := [-16, -1] + seq(14, _ => 0);
    var b := [15, -16, -16] + seq(13, _ => 0);
    assert AllBytes(zeros);
    assert AllBytes([-16, -1, 0]) && AllBytes([15, -16, -16]);
    assert a == [-16, -1, 0] + zeros;
    assert a[0] != b[0];
    CollidingHeads(15);
    HashTextAsWrittenAppend([-16, -1, 0], zeros);
    HashTextAsWrittenAppend([15, -16, -16], zeros);
  }

  // ---------------------------------------------------------------------
  // The evidently intended rendering: two hexadecimal digits per byte.

  /** The unsigned value of a byte, `b and 0xff` on an `Int`. */
  function Unsigned(b: int): (r: nat)
    requires IsByte(b)
    ensures r < 256
    ensures b >= 0 ==> r == b
    ensures b < 0 ==> r == b + 256
  {
    if b < 0 then b + 256 else b
  }

  /** Two digits per byte. */
  function ByteText(b: int): (r: string)
    requires IsByte(b)
    ensures |r| == 2
  {
    [HexDigit(Unsigned(b) / 16), HexDigit(Unsigned(b) % 16)]
  }

  /** The digest text with two digits per byte. */
  function HashText(bytes: seq<int>): (r: string)
    requires AllBytes(bytes)
    ensures |r| == 2 * |bytes|
  {
    if |bytes| == 0 then "" else ByteText(bytes[0]) + HashText(bytes[1..])
  }

  /** Non-negative bytes render the same in both versions; only negative bytes differ. */
  lemma ByteTextAgrees(b: int)
    requires IsByte(b)
    ensures b >= 0 <==> ByteTextAsWritten(b) == ByteText(b)
  {
  }

  /** Read a byte back from two digits. */
  function ParseByte(hi: char, lo: char): (r: Option<int>)
  {
    var h := DigitValue(hi);
    var l := DigitValue(lo);
    if h < 0 || l < 0 then None
    else
      var u := h * 16 + l;
      Some(if u >= 128 then u - 256 else u)
  }

  /** Read a digest back from its text: two digits per byte. */
  function ParseHash(s: string): (r: Option<seq<int>>)
    decreases |s|
  {
    if |s| == 0 then Some([])
    else if |s| == 1 then None
    else
      match ParseByte(s[0], s[1])
      case None => None
      case Some(b) =>
        match ParseHash(s[2..])
        case None => None
        case Some(rest) => Some([b] + rest)
  }

  lemma ByteRoundTrip(b: int)
    requires IsByte(b)
    ensures ParseByte(ByteText(b)[0], ByteText(b)[1]) == Some(b)
  {
    var u := Unsigned(b);
    DigitRoundTrip(u / 16);
    DigitRoundTrip(u % 16);
  }

  /** The corrected text determines the digest: parsing it gives the bytes back. */
  lemma {:induction false} HashTextRoundTrip(bytes: seq<int>)
    requires AllBytes(bytes)
    ensures ParseHash(HashText(bytes)) == Some(bytes)
  {
    if |bytes| > 0 {
      var s := HashText(bytes);
      ByteRoundTrip(bytes[0]);
      assert s[2..] == HashText(bytes[1..]);
      HashTextRoundTrip(bytes[1..]);
      assert bytes == [bytes[0]] + bytes[1..];
    }
  }

  /** Hence the corrected rendering never maps two digests to one text. */
  lemma HashTextInjective(a: seq<int>, b: seq<int>)
    requires AllBytes(a) && AllBytes(b)
    requires HashText(a) == HashText(b)
    ensures a == b
  {
    HashTextRoundTrip(a);
    HashTextRoundTrip(b);
  }

  /** Which rendering of the digest a route serves. */
  datatype Rendering = AsWritten | TwoDigit

  /** The digest text under the given rendering. */
  function Render(rendering: Rendering, bytes: seq<int>): (r: string)
    requires AllBytes(bytes)
    ensures rendering.TwoDigit? ==> |r| == 2 * |bytes| && ParseHash(r) == Some(bytes)
    ensures rendering.AsWritten? ==> |r| == 2 * CountNonNegative(bytes) + (|bytes| - CountNonNegative(bytes))
  {
    match rendering
    case AsWritten =>
      HashTextAsWrittenLength(bytes);
      HashTextAsWritten(bytes)
    case TwoDigit =>
      HashTextRoundTrip(bytes);
      HashText(bytes)
  }
}

=== FILE: discovery.dfy ===
/**
 * `startMDns` in both `Server.kt` files: whether the own service is
 * registered, which discovered services are asked to resolve, and which
 * resolved services lead to an exchange. The newer tree skips its own name
 * in both listeners; the older one only when a service is added.
 */
module Discovery {
  import opened Common
  import opened Devices

  const ServiceType: string := "_share._tcp.local."

  /** The service the device announces. */
  datatype Registration = Registration(serviceType: string, serviceName: string, port: int)

  /** Nothing is registered when the own port or client code is null. */
  function StartMDns(own: Device): (r: Option<Registration>)
    ensures r.None? <==> own.port.None? || own.clientCode.None?
    ensures r.Some? ==> r.value == Registration(ServiceType, own.clientCode.value, own.port.value)
  {
    match (own.port, own.clientCode)
    case (Some(port), Some(code)) => Some(Registration(ServiceType, code, port))
    case _ => None
  }

  /** A listener event (which JmDNS may hand over as null). */
  datatype ServiceEvent = ServiceEvent(serviceType: string, name: string)

  /** The service is a peer: the right type, a name other than the own code. */
  predicate IsPeer(ownCode: string, e: Option<ServiceEvent>) {
    e.Some? && e.value.serviceType == ServiceType && e.value.name != ownCode
  }

  /** `serviceAdded` (both trees): ask to resolve exactly the peers. */
  function RequestsResolution(ownCode: string, e: Option<ServiceEvent>): (r: bool)
    ensures r ==> e.Some? && e.value.serviceType == ServiceType && e.value.name != ownCode
    ensures e.Some? && e.value.serviceType == ServiceType && e.value.name != ownCode ==> r
  {
    IsPeer(ownCode, e)
  }

  /** What `serviceResolved` reads off the event: first IPv4 address and port, each nullable. */
  datatype Resolved = Resolved(event: Option<ServiceEvent>, ip: Option<string>, port: Option<int>)

  /** The arguments `exchangeDevice` is launched with. */
  datatype ExchangeCall = ExchangeCall(ip: Option<string>, port: Option<int>)

  /**
   * `serviceResolved`: the newer tree launches an exchange only for a peer;
   * the older tree launches one for every resolved event.
   */
  function OnResolved(v: Variant, ownCode: string, r: Resolved): (call: Option<ExchangeCall>)
    ensures call.Some? ==> call.value == ExchangeCall(r.ip, r.port)
    ensures v.Desktop? ==> (call.Some? <==> IsPeer(ownCode, r.event))
    ensures v.Legacy? ==> call.Some?
  {
    match v
    case Desktop => if IsPeer(ownCode, r.event) then Some(ExchangeCall(r.ip, r.port)) else None
    case Legacy => Some(ExchangeCall(r.ip, r.port))
  }

  /** The newer tree never exchanges with itself. */
  lemma DesktopSkipsSelf(ownCode: string, ip: Option<string>, port: Option<int>)
    ensures OnResolved(Desktop, ownCode, Resolved(Some(ServiceEvent(ServiceType, ownCode)), ip, port)).None?
  {
  }

  /** The older tree does, when its own service resolves with an address and port. */
  lemma LegacyExchangesWithSelf(ownCode: string, ip: string, port: int)
    ensures OnResolved(Legacy, ownCode, Resolved(Some(ServiceEvent(ServiceType, ownCode)), Some(ip), Some(port)))
            == Some(ExchangeCall(Some(ip), Some(port)))
  {
  }

  /**
   * The two listeners agree in the newer tree: a resolved event leads to an
   * exchange exactly when `serviceAdded` would have asked to resolve it. In
   * the older tree every resolved event does, asked for or not.
   */
  lemma ListenersAgree(v: Variant, ownCode: string, r: Resolved)
    ensures v.Desktop? ==> (OnResolved(v, ownCode, r).Some? <==> RequestsResolution(ownCode, r.event))
    ensures v.Legacy? ==> OnResolved(v, ownCode, r).Some?
  {
  }

  /** An event the older tree never asked to resolve (its own) still leads to an exchange there, and not in the newer tree. */
  lemma LegacyExchangesUnrequested(ownCode: string, ip: Option<string>, port: Option<int>)
    ensures var r := Resolved(Some(ServiceEvent(ServiceType, ownCode)), ip, port);
      && !RequestsResolution(ownCode, r.event)
      && OnResolved(Legacy, ownCode, r).Some?
      && OnResolved(Desktop, ownCode, r).None?
  {
  }

  /** A launched exchange sends a request only when both address and port are known. */
  lemma ResolvedWithoutAddressSendsNothing(v: Variant, ownCode: string, e: Option<ServiceEvent>, port: Option<int>,
                                           table: seq<Device>, reply: HttpReply, generatedId: int)
    ensures var call := OnResolved(v, ownCode, Resolved(e, None, port));
      call.None? || ExchangeDevice(table, call.value.ip, call.value.port, reply, generatedId).None?
  {
  }
}

=== FILE: download.dfy ===
/**
 * The receiving side of a file message, `downloadMessageFile` in
 * `util/Tool.kt`: pick a destination name that does not collide with a file
 * already in the download directory, append the response body packet by
 * packet while reporting progress, and record the outcome on the message.
 * The directory listing, the response body and its Content-Length header
 * are inputs.
 */
module Download {
  import opened Common
  import opened StrUtil
  import opened Devices
  import opened Messages

  /** `Int.toString()` for a non-negative value. */
  function DecimalString(n: nat): (r: string)
    ensures |r| >= 1
    ensures forall k :: 0 <= k < |r| ==> '0' <= r[k] <= '9'
    decreases n
  {
    if n < 10 then [('0' as int + n) as char]
    else DecimalString(n / 10) + [('0' as int + n % 10) as char]
  }

  /** The value of a run of decimal digits. */
  function DecimalValue(s: string): nat
    requires forall k :: 0 <= k < |s| ==> '0' <= s[k] <= '9'
  {
    if |s| == 0 then 0
    else DecimalValue(s[..|s| - 1]) * 10 + (s[|s| - 1] as int - '0' as int)
  }

  lemma {:induction false} DecimalRoundTrip(n: nat)
    ensures DecimalValue(DecimalString(n)) == n
    decreases n
  {
    var s := DecimalString(n);
    if n >= 10 {
      DecimalRoundTrip(n / 10);
      assert s[..|s| - 1] == DecimalString(n / 10);
    }
  }

  /** The renamed candidate `base(i)` with the original type, if any. */
  function Candidate(nt: NameAndType, i: nat): (r: string)
    ensures r == nt.base + "(" + DecimalString(i) + ")" + (if nt.ext.Some? then "." + nt.ext.value else "")
  {
    JoinNameAndType(NameAndType(nt.base + "(" + DecimalString(i) + ")", nt.ext))
  }

  /** Equal texts with the same surroundings have equal middles. */
  lemma MiddleEqual(p: string, x: string, y: string, q: string)
    requires p + x + q == p + y + q
    ensures x == y
  {
    var c := p + x + q;
    assert |x| == |y|;
    assert c[|p|..|p| + |x|] == x;
    assert (p + y + q)[|p|..|p| + |y|] == y;
  }

  /** Different indices give different candidates. */
  lemma CandidateInjective(nt: NameAndType, i: nat, j: nat)
    requires Candidate(nt, i) == Candidate(nt, j)
    ensures i == j
  {
    var tail := ")" + (if nt.ext.Some? then "." + nt.ext.value else "");
    var head := nt.base + "(";
    assert Candidate(nt, i) == head + DecimalString(i) + tail;
    assert Candidate(nt, j) == head + DecimalString(j) + tail;
    MiddleEqual(head, DecimalString(i), DecimalString(j), tail);
    DecimalRoundTrip(i);
    DecimalRoundTrip(j);
  }

  /** The split of a non-null file name. */
  function SplitName(filename: string): NameAndType {
    FileNameAndType(Some(filename)).value
  }

  /**
   * Splitting a renamed candidate again gives `base(i)` and the original
   * type: the index lands in the name part, never in the type.
   */
  lemma CandidateSplitsBack(filename: string, i: nat)
    ensures FileNameAndType(Some(Candidate(SplitName(filename), i)))
            == Some(NameAndType(SplitName(filename).base + "(" + DecimalString(i) + ")", SplitName(filename).ext))
  {
    var nt := SplitName(filename);
    SplitThenJoin(filename);
    var renamed := NameAndType(nt.base + "(" + DecimalString(i) + ")", nt.ext);
    assert CanonicalSplit(renamed) by {
      if nt.ext.None? {
        assert '.' !in DecimalString(i);
      }
    }
    JoinThenSplit(renamed);
  }

  /**
   * The destination name: the file name itself when it is free, otherwise
   * the first free `base(i).ext` with `i` counting from 1. The loop ends
   * because distinct indices give distinct names and only finitely many
   * names are taken.
   */
  method ChooseDestination(filename: string, existing: set<string>) returns (name: string, index: nat)
    ensures name !in existing
    ensures filename !in existing ==> name == filename && index == 0
    ensures filename in existing ==>
      && index >= 1
      && name == Candidate(SplitName(filename), index)
      && forall k :: 1 <= k < index ==> Candidate(SplitName(filename), k) in existing
  {
    if filename !in existing {
      return filename, 0;
    }
    var nt := SplitName(filename);
    index := 1;
    name := Candidate(nt, 1);
    ghost var tried: set<string> := {};
    while name in existing
      invariant index >= 1 && name == Candidate(nt, index)
      invariant forall k :: 1 <= k < index ==> Candidate(nt, k) in existing
      invariant tried <= existing && |tried| == index - 1
      invariant forall k :: index <= k ==> Candidate(nt, k) !in tried
      decreases |existing| - |tried|
    {
      forall k | index + 1 <= k
        ensures Candidate(nt, k) != name
      {
        if Candidate(nt, k) == name {
          CandidateInjective(nt, k, index);
        }
      }
      tried := tried + {name};
      SubsetCardinality(tried, existing);
      index := index + 1;
      name := Candidate(nt, index);
    }
  }

  lemma SubsetCardinality<T>(a: set<T>, b: set<T>)
    requires a <= b
    ensures |a| <= |b|
  {
    if a != b {
      var x :| x in b && x !in a;
      SubsetCardinality(a, b - {x});
    }
  }

  /** All packet bytes in order. */
  function Concat(packets: seq<seq<int>>): seq<int> {
    if |packets| == 0 then [] else packets[0] + Concat(packets[1..])
  }

  lemma {:induction false} ConcatSnoc(packets: seq<seq<int>>, p: seq<int>)
    ensures Concat(packets + [p]) == Concat(packets) + p
    decreases |packets|
  {
    if |packets| == 0 {
      assert packets + [p] == [p];
    } else {
      assert (packets + [p])[1..] == packets[1..] + [p];
      ConcatSnoc(packets[1..], p);
    }
  }

  /** One `FileProgress` event. */
  datatype FileProgress = FileProgress(messageId: Option<int>, handleSize: int, totalSize: int)

  function CountNonEmpty(packets: seq<seq<int>>): nat {
    if |packets| == 0 then 0 else (if |packets[0]| > 0 then 1 else 0) + CountNonEmpty(packets[1..])
  }

  lemma {:induction false} CountNonEmptySnoc(packets: seq<seq<int>>, p: seq<int>)
    ensures CountNonEmpty(packets + [p]) == CountNonEmpty(packets) + (if |p| > 0 then 1 else 0)
    decreases |packets|
  {
    if |packets| == 0 {
      assert packets + [p] == [p];
    } else {
      assert (packets + [p])[1..] == packets[1..] + [p];
      CountNonEmptySnoc(packets[1..], p);
    }
  }

  /**
   * The progress reported so far: each event names the message and the
   * Content-Length, the running sizes grow strictly, and the last one is the
   * number of bytes received.
   */
  predicate Reports(events: seq<FileProgress>, messageId: Option<int>, contentLength: int, received: int) {
    && (forall k :: 0 <= k < |events| ==>
          events[k].messageId == messageId && events[k].totalSize == contentLength
          && 0 < events[k].handleSize <= received)
    && (forall k :: 0 <= k < |events| - 1 ==> events[k].handleSize < events[k + 1].handleSize)
    && (|events| > 0 ==> events[|events| - 1].handleSize == received)
  }

  /** Taking one more packet. */
  lemma PrefixStep(packets: seq<seq<int>>, i: nat)
    requires i < |packets|
    ensures Concat(packets[..i + 1]) == Concat(packets[..i]) + packets[i]
    ensures CountNonEmpty(packets[..i + 1]) == CountNonEmpty(packets[..i]) + (if |packets[i]| > 0 then 1 else 0)
  {
    assert packets[..i + 1] == packets[..i] + [packets[i]];
    ConcatSnoc(packets[..i], packets[i]);
    CountNonEmptySnoc(packets[..i], packets[i]);
  }

  lemma ReportsSnoc(events: seq<FileProgress>, messageId: Option<int>, contentLength: int, received: int, n: int)
    requires Reports(events, messageId, contentLength, received) && received >= 0 && n > 0
    ensures Reports(events + [FileProgress(messageId, received + n, contentLength)], messageId, contentLength, received + n)
  {
  }

  /** What the body loop has done after the first `i` packets. */
  predicate Received(packets: seq<seq<int>>, i: nat, messageId: Option<int>, contentLength: int,
                     content: seq<int>, downloadSize: int, events: seq<FileProgress>)
    requires i <= |packets|
  {
    && content == Concat(packets[..i])
    && downloadSize == |content|
    && |events| == CountNonEmpty(packets[..i])
    && Reports(events, messageId, contentLength, downloadSize)
  }

  /** A non-empty packet is appended, counted and reported. */
  lemma ReceivePacket(packets: seq<seq<int>>, i: nat, messageId: Option<int>, contentLength: int,
                      content: seq<int>, downloadSize: int, events: seq<FileProgress>)
    requires i < |packets| && |packets[i]| > 0
    requires Received(packets, i, messageId, contentLength, content, downloadSize, events)
    ensures var next := downloadSize + |packets[i]|;
      Received(packets, i + 1, messageId, contentLength, content + packets[i], next,
               events + [FileProgress(messageId, next, contentLength)])
  {
    PrefixStep(packets, i);
    ReportsSnoc(events, messageId, contentLength, downloadSize, |packets[i]|);
  }

  /** An empty packet changes nothing. */
  lemma SkipPacket(packets: seq<seq<int>>, i: nat, messageId: Option<int>, contentLength: int,
                   content: seq<int>, downloadSize: int, events: seq<FileProgress>)
    requires i < |packets| && |packets[i]| == 0
    requires Received(packets, i, messageId, contentLength, content, downloadSize, events)
    ensures Received(packets, i + 1, messageId, contentLength, content, downloadSize, events)
  {
    PrefixStep(packets, i);
    assert content + packets[i] == content;
  }

  /**
   * The body loop: every packet is appended to the file, the running size
   * is the number of bytes appended so far, and each non-empty packet
   * reports that running size against the Content-Length.
   */
  method ReceiveBody(packets: seq<seq<int>>, messageId: Option<int>, contentLength: int)
    returns (content: seq<int>, downloadSize: int, events: seq<FileProgress>)
    ensures content == Concat(packets)
    ensures downloadSize == |content|
    ensures |events| == CountNonEmpty(packets)
    ensures Reports(events, messageId, contentLength, downloadSize)
  {
    content := [];
    downloadSize := 0;
    events := [];
    var i := 0;
    while i < |packets|
      invariant 0 <= i <= |packets|
      invariant Received(packets, i, messageId, contentLength, content, downloadSize, events)
    {
      var packet := packets[i];
      if |packet| > 0 {
        ReceivePacket(packets, i, messageId, contentLength, content, downloadSize, events);
        content := content + packet;
        downloadSize := downloadSize + |packet|;
        events := events + [FileProgress(messageId, downloadSize, contentLength)];
      } else {
        SkipPacket(packets, i, messageId, contentLength, content, downloadSize, events);
      }
      i := i + 1;
    }
    assert packets[..i] == packets;
  }

  /**
   * The fields recorded when the body has been read: success, the bytes
   * received, the announced length (0 when the header is absent) and the
   * saved path. Nothing compares the two sizes.
   */
  function Complete(m: DeviceMessage, contentLength: Option<int>, downloadSize: int, savePath: string): (r: DeviceMessage)
    ensures r.downloadSuccess == Some(true)
    ensures r.downloadSize == Some(downloadSize)
    ensures r.size == Some(if contentLength.Some? then contentLength.value else 0)
    ensures r.savePath == Some(savePath)
    ensures r.(downloadSuccess := m.downloadSuccess, downloadSize := m.downloadSize, size := m.size, savePath := m.savePath) == m
  {
    m.(downloadSuccess := Some(true), downloadSize := Some(downloadSize),
       size := Some(contentLength.GetOr(0)), savePath := Some(savePath))
  }

  /** A download cut short is still recorded as a success. */
  lemma ShortBodyStillSucceeds(m: DeviceMessage, announced: int, received: int, savePath: string)
    requires received < announced
    ensures Complete(m, Some(announced), received, savePath).downloadSuccess == Some(true)
    ensures Complete(m, Some(announced), received, savePath).downloadSize != Complete(m, Some(announced), received, savePath).size
  {
  }

  /** What one call of `downloadMessageFile` leaves behind. */
  datatype Downloaded = Downloaded(fileName: string, content: seq<int>, message: DeviceMessage, events: seq<FileProgress>)

  /**
   * `downloadMessageFile`: nothing unless the sender is known and the
   * message names a file; otherwise a fresh destination, the body written
   * to it, and the completed message.
   */
  method DownloadMessageFile(r: Received, directory: string, existing: set<string>,
                             packets: seq<seq<int>>, contentLength: Option<int>)
    returns (outcome: Option<Downloaded>)
    ensures outcome.None? <==> !ShouldDownload(r)
    ensures outcome.Some? ==>
      var d := outcome.value;
      && d.fileName !in existing
      && d.content == Concat(packets)
      && d.message == Complete(r.message, contentLength, |Concat(packets)|, directory + "/" + d.fileName)
      && |d.events| == CountNonEmpty(packets)
  {
    if !ShouldDownload(r) {
      return None;
    }
    var name, _ := ChooseDestination(r.message.filename.value, existing);
    var content, downloadSize, events := ReceiveBody(packets, r.message.id, contentLength.GetOr(0));
    var completed := Complete(r.message, contentLength, downloadSize, directory + "/" + name);
    return Some(Downloaded(name, content, completed, events));
  }
}

=== FILE: events.dfy ===
/**
 * `Event` in both trees: a list of handlers. Registering appends and hands
 * back a remover that deletes one occurrence; dispatching calls the handlers
 * in order and stops at the first one that throws. Handlers are compared by
 * identity, modelled as values of an equality type.
 */
module Events {

  /** `registerAction`: append. */
  function Register<H>(actions: seq<H>, h: H): (r: seq<H>)
    ensures |r| == |actions| + 1 && r[|actions|] == h && r[..|actions|] == actions
  {
    actions + [h]
  }

  /** The position of the first occurrence of a handler, or the length when there is none. */
  function FirstIndex<H(==)>(actions: seq<H>, h: H): (r: nat)
    ensures r <= |actions|
    ensures r < |actions| ==> actions[r] == h
    ensures forall j :: 0 <= j < r ==> actions[j] != h
    ensures r == |actions| <==> h !in actions
  {
    if |actions| == 0 then 0
    else if actions[0] == h then 0
    else FirstIndex(actions[1..], h) + 1
  }

  /** `MutableList.remove`: drop the first occurrence, if any. */
  function Remove<H(==)>(actions: seq<H>, h: H): (r: seq<H>)
    ensures h !in actions ==> r == actions
    ensures h in actions ==> |r| == |actions| - 1
    ensures h in actions ==>
      (var i := FirstIndex(actions, h); r[..i] == actions[..i] && r[i..] == actions[i + 1..])
  {
    var i := FirstIndex(actions, h);
    if i == |actions| then actions else actions[..i] + actions[i + 1..]
  }

  /** Registering a new handler and then calling its remover restores the list. */
  lemma RegisterThenRemove<H>(actions: seq<H>, h: H)
    requires h !in actions
    ensures Remove(Register(actions, h), h) == actions
  {
    var r := Register(actions, h);
    assert FirstIndex(r, h) == |actions|;
  }

  /** For a handler already registered, the remover drops the older copy: same handlers, new order. */
  lemma RegisterThenRemoveReorders()
    ensures Remove(Register([1, 2], 1), 1) == [2, 1]
  {
    assert Register([1, 2], 1) == [1, 2, 1];
  }

  /** Removal keeps every other handler with its multiplicity. */
  lemma RemoveKeepsOthers<H>(actions: seq<H>, h: H)
    ensures multiset(Remove(actions, h)) == multiset(actions) - multiset{h}
  {
    var i := FirstIndex(actions, h);
    if i < |actions| {
      assert actions == actions[..i] + [h] + actions[i + 1..];
      assert multiset(actions) == multiset(actions[..i]) + multiset{h} + multiset(actions[i + 1..]);
    } else {
      assert multiset(actions)[h] == 0;
    }
  }

  /** One call made by `doAction`. */
  datatype Call<H, T> = Call(handler: H, data: T)

  /**
   * `doAction(data)`: each handler in registration order, with the same
   * data, until one throws (`throwing` holds the handlers that do); the
   * throwing handler's call is the last one.
   */
  function Dispatch<H(==), T>(actions: seq<H>, data: T, throwing: set<H>): (calls: seq<Call<H, T>>)
    ensures |calls| <= |actions|
    ensures forall k :: 0 <= k < |calls| ==> calls[k] == Call(actions[k], data)
    ensures forall k :: 0 <= k < |calls| - 1 ==> actions[k] !in throwing
    ensures |calls| < |actions| ==> |calls| > 0 && actions[|calls| - 1] in throwing
    ensures (forall k :: 0 <= k < |actions| ==> actions[k] !in throwing) ==> |calls| == |actions|
  {
    if |actions| == 0 then []
    else if actions[0] in throwing then [Call(actions[0], data)]
    else [Call(actions[0], data)] + Dispatch(actions[1..], data, throwing)
  }
}

=== FILE: messages.dfy ===
/**
 * The message routes of both `Server.kt` files: the record `/message` stores
 * for an incoming message, and the decision `/download` and `/downloadInfo`
 * make before serving a stored file. The database and the file system are
 * inputs: the stored messages as a sequence, the files as a map from path
 * to what is there.
 */
module Messages {
  import opened Common
  import opened Devices
  import opened Digest

  /** A row of `device_message`, with the fields the routes and the downloader use. */
  datatype DeviceMessage = DeviceMessage(
    id: Option<int>,
    createdTime: Option<int>,
    deviceId: Option<int>,
    kind: Option<string>,
    content: Option<string>,
    filename: Option<string>,
    size: Option<int>,
    oppositeId: Option<int>,
    filepath: Option<string>,
    savePath: Option<string>,
    downloadSuccess: Option<bool>,
    downloadSize: Option<int>)

  /** `DeviceMessage()`: every field null. */
  const EmptyMessage: DeviceMessage :=
    DeviceMessage(None, None, None, None, None, None, None, None, None, None, None, None)

  /** The JSON body of a POST to `/message`. */
  datatype MessageParams = MessageParams(
    sendId: Option<int>,
    clientCode: Option<string>,
    content: Option<string>,
    filename: Option<string>,
    size: Option<int>)

  /** The stored record and the peer it came from (null when the code is unknown). */
  datatype Received = Received(message: DeviceMessage, sender: Option<Device>)

  /**
   * `/message`: a "receive" record whose `oppositeId` is the sender's own
   * message id, with content, file name and size copied, the clock reading
   * as creation time, and the id of the first peer with the sender's code
   * (null when there is none).
   */
  function ReceiveMessage(peers: seq<Device>, p: MessageParams, now: int): (r: Received)
    ensures r.message.kind == Some("receive")
    ensures r.message.oppositeId == p.sendId
    ensures r.message.content == p.content && r.message.filename == p.filename && r.message.size == p.size
    ensures r.message.createdTime == Some(now)
    ensures r.message.id.None? && r.message.filepath.None? && r.message.savePath.None?
    ensures r.message.downloadSuccess.None? && r.message.downloadSize.None?
    ensures r.sender.Some? <==> exists j :: 0 <= j < |peers| && MatchesCode(peers[j], p.clientCode)
    ensures r.sender == (if FindByCode(peers, p.clientCode).Some? then Some(peers[FindByCode(peers, p.clientCode).value]) else None)
    ensures r.sender.Some? ==> r.sender.value in peers && MatchesCode(r.sender.value, p.clientCode)
    ensures r.message.deviceId == (if r.sender.Some? then r.sender.value.id else None)
  {
    var found := FindByCode(peers, p.clientCode);
    var sender := if found.Some? then Some(peers[found.value]) else None;
    var message := EmptyMessage.(
      oppositeId := p.sendId, content := p.content, filename := p.filename,
      createdTime := Some(now), kind := Some("receive"), size := p.size,
      deviceId := if sender.Some? then sender.value.id else None);
    Received(message, sender)
  }

  /**
   * A message from a peer that has just exchanged is
   * recorded against the row that exchange saved.
   */
  lemma {:induction false} MessageAfterExchange(table: seq<Device>, request: Device, generatedId: int, p: MessageParams, now: int)
    requires request.clientCode.Some? && p.clientCode == request.clientCode
    requires AllKeyed(table) && UniqueIds(table) && FreshId(table, generatedId)
    ensures var ex := Upsert(table, request, generatedId);
      var r := ReceiveMessage(ex.table, p, now);
      && r.sender == Some(ex.saved)
      && r.message.deviceId == ex.saved.id
  {
    var ex := Upsert(table, request, generatedId);
    var found := FindByCode(table, request.clientCode);
    var i := if UpdatesRow(table, request) then found.value else |table|;
    assert ex.table[i] == ex.saved;
    assert MatchesCode(ex.saved, p.clientCode);
    forall j | 0 <= j < i
      ensures !MatchesCode(ex.table[j], p.clientCode)
    {
      assert ex.table[j] == table[j];
    }
    assert FindByCode(ex.table, p.clientCode) == Some(i);
  }

  /** `downloadMessageFile` does anything only for a known sender and a file name. */
  predicate ShouldDownload(r: Received) {
    r.sender.Some? && r.message.filename.Some?
  }

  /** A text message (no file name) is never downloaded, whoever sent it. */
  lemma TextMessageNotDownloaded(peers: seq<Device>, p: MessageParams, now: int)
    requires p.filename.None?
    ensures !ShouldDownload(ReceiveMessage(peers, p, now))
  {
  }

  /** The `messageId` query parameter as `toLong()` sees it. */
  datatype IdParam = NoParam | Number(n: int) | NotANumber

  /** What is at a path: a directory or a regular file (with its length and MD5 digest). */
  datatype FileEntry = Directory | RegularFile(length: int, digest: seq<int>)

  /** The file system: a path missing from the map does not exist. */
  type Files = map<string, FileEntry>

  /**
   * `select * from device_message where id = ${messageId}` then the first row:
   * a missing parameter interpolates as `null`, which no row equals; a
   * parameter `toLong()` cannot read throws.
   */
  function LookupMessage(messages: seq<DeviceMessage>, id: IdParam): (r: Result<Option<DeviceMessage>, IdParam>)
    ensures r.Err? <==> id.NotANumber?
    ensures id.NoParam? ==> r == Ok(None)
    ensures id.Number? ==> r.Ok? && (r.value.Some? <==> exists j :: 0 <= j < |messages| && messages[j].id == Some(id.n))
    ensures id.Number? && r.value.Some? ==> r.value.value in messages && r.value.value.id == Some(id.n)
  {
    match id
    case NoParam => Ok(None)
    case NotANumber => Err(id)
    case Number(n) => Ok(FirstWithId(messages, n))
  }

  function FirstWithId(messages: seq<DeviceMessage>, n: int): (r: Option<DeviceMessage>)
    ensures r.Some? <==> exists j :: 0 <= j < |messages| && messages[j].id == Some(n)
    ensures r.Some? ==> r.value in messages && r.value.id == Some(n)
  {
    if |messages| == 0 then None
    else if messages[0].id == Some(n) then Some(messages[0])
    else
      var r := FirstWithId(messages[1..], n);
      assert forall j :: 1 <= j < |messages| ==> messages[1..][j - 1] == messages[j];
      r
  }

  /** The answers of `/download` and `/downloadInfo`. */
  datatype Reply =
    | Failed                               // the handler throws
    | NotFoundPath                         // 404 "not found path"
    | NotFoundFile                         // 404 "not found file"
    | ServeFile(path: string)              // the file itself
    | ServeInfo(size: int, hash: string)   // `DownloadInfo` as JSON

  const HttpNotFound: int := 404

  /** The HTTP status of a reply (500 for a thrown exception). */
  function Status(r: Reply): int {
    match r
    case Failed => 500
    case NotFoundPath => HttpNotFound
    case NotFoundFile => HttpNotFound
    case _ => HttpOk
  }

  /** The message exists, has a path, and a regular file is at that path. */
  predicate Servable(message: Option<DeviceMessage>, files: Files) {
    message.Some? && message.value.filepath.Some?
    && message.value.filepath.value in files && files[message.value.filepath.value].RegularFile?
  }

  /** The shared decision: which 404 applies, or the path to serve. */
  function Locate(message: Option<DeviceMessage>, files: Files): (r: Reply)
    ensures r.ServeFile? <==> Servable(message, files)
    ensures r.ServeFile? ==> r.path == message.value.filepath.value
    ensures r == NotFoundPath <==> message.None? || message.value.filepath.None?
    ensures r.NotFoundPath? || r.NotFoundFile? || r.ServeFile?
  {
    if message.None? || message.value.filepath.None? then NotFoundPath
    else
      var path := message.value.filepath.value;
      if path !in files || files[path].Directory? then NotFoundFile
      else ServeFile(path)
  }

  /** `/download` (both trees). */
  function Download(messages: seq<DeviceMessage>, files: Files, id: IdParam): (r: Reply)
    ensures id.NotANumber? <==> r.Failed?
    ensures !id.NotANumber? ==> (Status(r) == HttpNotFound <==> !Servable(LookupMessage(messages, id).value, files))
    ensures r.ServeFile? ==> r.path in files && files[r.path].RegularFile?
  {
    match LookupMessage(messages, id)
    case Err(_) => Failed
    case Ok(message) => Locate(message, files)
  }

  /**
   * `/downloadInfo` (newer tree): the same 404s, else the file's length and
   * digest text. `AsWritten` renders the digest as the older tree's `hash`
   * does, one digit for a negative byte; `TwoDigit` is the corrected form,
   * whose text always decodes back to the digest.
   */
  function DownloadInfo(rendering: Rendering, messages: seq<DeviceMessage>, files: Files, id: IdParam): (r: Reply)
    requires forall p :: p in files && files[p].RegularFile? ==> AllBytes(files[p].digest)
    ensures id.NotANumber? <==> r.Failed?
    ensures !id.NotANumber? ==> (Status(r) == HttpNotFound <==> !Servable(LookupMessage(messages, id).value, files))
    ensures r.ServeInfo? ==>
      var digest := files[LookupMessage(messages, id).value.value.filepath.value].digest;
      && r.size == files[LookupMessage(messages, id).value.value.filepath.value].length
      && (rendering.TwoDigit? ==> |r.hash| == 2 * |digest| && ParseHash(r.hash) == Some(digest))
      && (rendering.AsWritten? ==> |r.hash| == 2 * CountNonNegative(digest) + (|digest| - CountNonNegative(digest)))
  {
    match LookupMessage(messages, id)
    case Err(_) => Failed
    case Ok(message) =>
      match Locate(message, files)
      case ServeFile(path) => ServeInfo(files[path].length, Render(rendering, files[path].digest))
      case other => other
  }

  /** Both routes answer 404 in exactly the same cases, with the same message. */
  lemma DownloadRoutesAgree(rendering: Rendering, messages: seq<DeviceMessage>, files: Files, id: IdParam)
    requires forall p :: p in files && files[p].RegularFile? ==> AllBytes(files[p].digest)
    ensures Status(Download(messages, files, id)) == Status(DownloadInfo(rendering, messages, files, id))
    ensures Download(messages, files, id).NotFoundPath? <==> DownloadInfo(rendering, messages, files, id).NotFoundPath?
    ensures Download(messages, files, id).ServeFile? <==> DownloadInfo(rendering, messages, files, id).ServeInfo?
  {
  }

  /**
   * Served as written, two files with different digests can report the same
   * digest text; the corrected rendering reports different texts.
   */
  lemma DownloadInfoAsWrittenAmbiguous(m: DeviceMessage, n: int, path: string, length: int)
    requires m.id == Some(n) && m.filepath == Some(path)
    ensures var a := [-16, -1] + seq(14, _ => 0);
      var b := [15, -16, -16] + seq(13, _ => 0);
      && AllBytes(a) && AllBytes(b) && a != b
      && DownloadInfo(AsWritten, [m], map[path := RegularFile(length, a)], Number(n))
         == DownloadInfo(AsWritten, [m], map[path := RegularFile(length, b)], Number(n))
      && DownloadInfo(TwoDigit, [m], map[path := RegularFile(length, a)], Number(n))
         != DownloadInfo(TwoDigit, [m], map[path := RegularFile(length, b)], Number(n))
  {
    var a := [-16, -1] + seq(14, _ => 0);
    var b := [15, -16, -16] + seq(13, _ => 0);
    var fa := map[path := RegularFile(length, a)];
    var fb := map[path := RegularFile(length, b)];
    HashTextAsWrittenCollides();
    assert LookupMessage([m], Number(n)) == Ok(Some(m));
    assert Locate(Some(m), fa) == ServeFile(path) && Locate(Some(m), fb) == ServeFile(path);
    assert Render(AsWritten, a) == Render(AsWritten, b);
    assert Render(TwoDigit, a) != Render(TwoDigit, b);
  }

  /** A message whose file was removed, or replaced by a directory, answers 404. */
  lemma StaleFileNotFound(messages: seq<DeviceMessage>, files: Files, n: int, path: string)
    requires forall j :: 0 <= j < |messages| && messages[j].id == Some(n) ==> messages[j].filepath == Some(path)
    requires path !in files || files[path].Directory?
    ensures Status(Download(messages, files, Number(n))) == HttpNotFound
  {
  }
}

=== FILE: orm.dfy ===
/**
 * The pure rules of the reflective mini ORM in `db.kt` (both trees): which
 * SQLite type a property gets, how table and column names are derived, how a
 * property value is rendered into SQL text, the insert-or-update decision of
 * `save`, the null-id rule of `delete`, and how an INTEGER column is read back
 * as a Boolean. Reflection is replaced by an explicit declaration of the
 * entity's primary-constructor parameters.
 */
module Orm {
  import opened Common
  import opened Chars
  import opened StrUtil

  /**
   * The Java type reflection reports for a constructor parameter. A nullable
   * Kotlin property (`Long?`, `Boolean?`) has the boxed class (`JLong`,
   * `JBoolean`); a non-null `Long`, `Float`, `Double` or `Boolean` has the
   * primitive class. A bare `Long::class.java` names the primitive `long`
   * unless the file imports `java.lang.Long`, as the newer `db.kt` does for
   * `Long`, `Float` and `Double`; neither tree imports `java.lang.Boolean`,
   * so a bare `Boolean::class.java` is the primitive `boolean` in both.
   */
  datatype JavaType =
    | JString | JInteger | JLong | JFloat | JDouble | JBigDecimal
    | JByteArray | JDate | JBoolean
    | JPrimitiveLong | JPrimitiveFloat | JPrimitiveDouble | JPrimitiveBoolean
    | JOther(name: string)

  predicate IsPrimitive(t: JavaType) {
    t.JPrimitiveLong? || t.JPrimitiveFloat? || t.JPrimitiveDouble? || t.JPrimitiveBoolean?
  }

  /** `getSqliteType`: the storage class for a Java type, or null when unsupported. */
  function SqliteType(t: JavaType): (r: Option<string>)
    ensures r == Some("TEXT") <==> t in {JString, JDate}
    ensures r == Some("INTEGER") <==> t in {JInteger, JLong, JBoolean}
    ensures r == Some("REAL") <==> t in {JFloat, JDouble}
    ensures r == Some("NUMERIC") <==> t == JBigDecimal
    ensures r == Some("BLOB") <==> t == JByteArray
    ensures r.None? <==> IsPrimitive(t) || t.JOther?
  {
    match t
    case JString => Some("TEXT")
    case JInteger => Some("INTEGER")
    case JLong => Some("INTEGER")
    case JFloat => Some("REAL")
    case JDouble => Some("REAL")
    case JBigDecimal => Some("NUMERIC")
    case JByteArray => Some("BLOB")
    case JDate => Some("TEXT")
    case JBoolean => Some("INTEGER")
    case _ => None
  }

  /**
   * Whether the `when` of `queryList` has an arm for a parameter's Java type;
   * a parameter without one is handed null. Both trees name the boxed
   * `Long`, `Float` and `Double` (the newer one through its `java.lang`
   * imports); they differ in the Boolean arm, which the newer tree writes as
   * `java.lang.Boolean` and the older one as the primitive Kotlin literal.
   */
  function HasReadArm(variant: Variant, t: JavaType): (r: bool)
    ensures r ==> SqliteType(t).Some? || (variant.Legacy? && t == JPrimitiveBoolean)
  {
    match variant
    case Desktop => t in {JString, JInteger, JLong, JFloat, JDouble, JBigDecimal, JByteArray, JDate, JBoolean}
    case Legacy => t in {JString, JInteger, JLong, JFloat, JDouble, JBigDecimal, JByteArray, JDate, JPrimitiveBoolean}
  }

  /**
   * The newer tree has a read arm for exactly the types `save` can store, so
   * every stored property (a `Long?` id included) reads back; the older tree
   * reads back all of them but the boxed `Boolean`.
   */
  lemma StoredTypesReadBack(variant: Variant, t: JavaType)
    ensures variant.Desktop? ==> (HasReadArm(variant, t) <==> SqliteType(t).Some?)
    ensures variant.Legacy? && SqliteType(t).Some? ==> (HasReadArm(variant, t) <==> t != JBoolean)
  {
  }

  /** The `@Column` annotation: explicit name, explicit type, primary-key flag. */
  datatype ColumnAnnotation = ColumnAnnotation(value: string, sqlType: string, isPrimaryKey: bool)

  /** One primary-constructor parameter of an entity class. */
  datatype Param = Param(name: string, javaType: JavaType, annotation: Option<ColumnAnnotation>)

  /** An entity class: its simple name and its primary-constructor parameters. */
  datatype EntityDecl = EntityDecl(simpleName: string, params: seq<Param>)

  datatype ColumnInfo = ColumnInfo(name: string, sqlType: string, isPrimaryKey: bool, javaType: JavaType)

  datatype TableInfo = TableInfo(name: string, columns: seq<ColumnInfo>)

  datatype OrmError = UnsupportedType(className: string, javaType: JavaType)

  /** Kotlin `isBlank()`: empty or only whitespace. */
  predicate IsBlank(s: string) {
    forall i :: 0 <= i < |s| ==> IsWhitespace(s[i])
  }

  /** The annotation value when it is not blank, else `toUnderCase` of the parameter name. */
  function ColumnName(p: Param): (r: string)
    ensures p.annotation.Some? && !IsBlank(p.annotation.value.value) ==> r == p.annotation.value.value
    ensures p.annotation.None? || IsBlank(p.annotation.value.value) ==> NoUpper(r) && |r| >= |p.name|
  {
    if p.annotation.Some? && !IsBlank(p.annotation.value.value) then p.annotation.value.value
    else ToUnderCase(p.name)
  }

  /** `resolveTableInfo` for one parameter: it throws when no type can be found. */
  function ResolveColumn(className: string, p: Param): (r: Result<ColumnInfo, OrmError>)
    ensures r.Err? <==> (p.annotation.None? || IsBlank(p.annotation.value.sqlType)) && SqliteType(p.javaType).None?
    ensures r.Ok? ==> r.value.name == ColumnName(p) && r.value.javaType == p.javaType
    ensures r.Ok? ==> (r.value.isPrimaryKey <==> p.annotation.Some? && p.annotation.value.isPrimaryKey)
    ensures r.Ok? && p.annotation.Some? && !IsBlank(p.annotation.value.sqlType) ==> r.value.sqlType == p.annotation.value.sqlType
    ensures r.Ok? && (p.annotation.None? || IsBlank(p.annotation.value.sqlType)) ==> Some(r.value.sqlType) == SqliteType(p.javaType)
  {
    var isPrimaryKey := p.annotation.Some? && p.annotation.value.isPrimaryKey;
    if p.annotation.Some? && !IsBlank(p.annotation.value.sqlType) then
      Ok(ColumnInfo(ColumnName(p), p.annotation.value.sqlType, isPrimaryKey, p.javaType))
    else
      match SqliteType(p.javaType)
      case Some(t) => Ok(ColumnInfo(ColumnName(p), t, isPrimaryKey, p.javaType))
      case None => Err(UnsupportedType(className, p.javaType))
  }

  /** The columns in parameter order; the first unsupported parameter aborts. */
  function ResolveColumns(className: string, params: seq<Param>): (r: Result<seq<ColumnInfo>, OrmError>)
    ensures r.Ok? ==> |r.value| == |params|
    ensures r.Ok? ==> forall i :: 0 <= i < |params| ==> ResolveColumn(className, params[i]) == Ok(r.value[i])
    ensures r.Err? <==> exists i :: 0 <= i < |params| && ResolveColumn(className, params[i]).Err?
  {
    Collect(seq(|params|, i requires 0 <= i < |params| => ResolveColumn(className, params[i])))
  }

  /** The table name: `toUnderCase(toFirstLower(simpleName))`. */
  function TableName(simpleName: string): (r: string)
    ensures NoUpper(r) && |r| >= |simpleName|
    ensures |simpleName| > 0 && simpleName[0] != '_' ==> |r| > 0 && r[0] == ToLower(simpleName[0])
  {
    if |simpleName| > 0 && simpleName[0] != '_' then
      TableNameNoLeadingUnderscore(simpleName);
      ToUnderCase(ToFirstLower(simpleName))
    else
      ToUnderCase(ToFirstLower(simpleName))
  }

  /** `resolveTableInfo`. */
  function ResolveTableInfo(decl: EntityDecl): (r: Result<TableInfo, OrmError>)
    ensures r.Ok? ==> r.value.name == TableName(decl.simpleName)
    ensures r.Ok? ==> |r.value.columns| == |decl.params|
    ensures r.Ok? ==> forall i :: 0 <= i < |decl.params| ==> ResolveColumn(decl.simpleName, decl.params[i]) == Ok(r.value.columns[i])
    ensures r.Err? <==> exists i :: 0 <= i < |decl.params| && ResolveColumn(decl.simpleName, decl.params[i]).Err?
  {
    match ResolveColumns(decl.simpleName, decl.params)
    case Ok(cs) => Ok(TableInfo(TableName(decl.simpleName), cs))
    case Err(e) => Err(e)
  }

  /**
   * `queryList` looks a property's column up by `toUnderCase` of the parameter
   * name, ignoring the annotation. Reading back finds the column `save`
   * wrote exactly when the annotation names no column, or names that one.
   */
  lemma ReadBackColumnName(p: Param)
    ensures ColumnName(p) == ToUnderCase(p.name) <==>
      p.annotation.None? || IsBlank(p.annotation.value.value) || p.annotation.value.value == ToUnderCase(p.name)
  {
  }

  /**
   * A property value as `save` sees it. A `java.util.Date` has two renderings:
   * its `format()` text and its `toString()` text; both are inputs here.
   */
  datatype FieldValue =
    | NullValue
    | BoolValue(b: bool)
    | DateValue(formatted: string, display: string)
    | OtherValue(text: string)

  /** The value's `toString()`, as string templates and `joinToString` use it. */
  function ToText(v: FieldValue): string {
    match v
    case NullValue => "null"
    case BoolValue(b) => if b then "true" else "false"
    case DateValue(_, display) => display
    case OtherValue(text) => text
  }

  /** The text a TEXT column puts between the quotes: a Date's formatted form, else the value's text. */
  function TextBody(c: ColumnInfo, v: FieldValue): string {
    if c.javaType == JDate && v.DateValue? then v.formatted else ToText(v)
  }

  /** `getValue`: the SQL literal for one column of an entity. */
  function Literal(c: ColumnInfo, v: FieldValue): (r: string)
    ensures v.NullValue? ==> r == "null"
    ensures !v.NullValue? && c.sqlType == "TEXT" ==>
      |r| >= 2 && r[0] == '"' && r[|r| - 1] == '"' && r[1..|r| - 1] == TextBody(c, v)
    ensures !v.NullValue? && c.sqlType != "TEXT" && c.javaType == JPrimitiveBoolean && v.BoolValue? ==>
      r == (if v.b then "1" else "0")
    ensures !v.NullValue? && c.sqlType != "TEXT" && !(c.javaType == JPrimitiveBoolean && v.BoolValue?) ==>
      r == ToText(v)
  {
    if v.NullValue? then "null"
    else if c.sqlType == "TEXT" then "\"" + TextBody(c, v) + "\""
    else if c.javaType == JPrimitiveBoolean && v.BoolValue? then (if v.b then "1" else "0")
    else ToText(v)
  }

  /** `columns.find { it.isPrimaryKey == true }`: the first primary-key column. */
  function PrimaryKeyIndex(cs: seq<ColumnInfo>): (r: Option<nat>)
    ensures r.Some? ==> r.value < |cs| && cs[r.value].isPrimaryKey
    ensures r.Some? ==> forall j :: 0 <= j < r.value ==> !cs[j].isPrimaryKey
    ensures r.None? ==> forall j :: 0 <= j < |cs| ==> !cs[j].isPrimaryKey
  {
    if |cs| == 0 then None
    else if cs[0].isPrimaryKey then Some(0)
    else
      match PrimaryKeyIndex(cs[1..])
      case Some(k) => Some(k + 1)
      case None => None
  }

  datatype Assignment = Assignment(column: string, value: string)

  /** The statement `save` issues, before it is rendered into SQL text. */
  datatype Statement =
    | Insert(table: string, columns: seq<string>, values: seq<string>)
    | Update(table: string, assignments: seq<Assignment>, keyColumn: string, keyValue: string)

  /** What `save` does to the entity's key property after the statement. */
  datatype KeyWriteBack = KeepKey | SetKey(key: Option<int>)

  datatype SaveOutcome = SaveOutcome(statement: Statement, writeBack: KeyWriteBack)

  /** An entity row: one value per column. */
  predicate RowFits(t: TableInfo, row: seq<FieldValue>) {
    |row| == |t.columns|
  }

  /** Whether `save` inserts: no key column, or a null key value. */
  predicate InsertsRow(t: TableInfo, row: seq<FieldValue>)
    requires RowFits(t, row)
  {
    var k := PrimaryKeyIndex(t.columns);
    k.None? || row[k.value].NullValue?
  }

  /**
   * `save` on a resolved table. `keyMutable` says the key is a `var`;
   * `generatedKey` is what the driver reports after an insert (`None` when
   * it reports no row). Both trees compare the key's type with the boxed
   * `java.lang.Long`, the type of a `Long?` key.
   */
  function SaveStatement(t: TableInfo, row: seq<FieldValue>, keyMutable: bool, generatedKey: Option<int>): (r: SaveOutcome)
    requires RowFits(t, row)
    ensures r.statement.Insert? <==> InsertsRow(t, row)
    ensures r.statement.table == t.name
    ensures r.statement.Insert? ==>
      |r.statement.columns| == |t.columns| == |r.statement.values|
      && (forall i :: 0 <= i < |t.columns| ==> r.statement.columns[i] == t.columns[i].name)
      && (forall i :: 0 <= i < |t.columns| ==> r.statement.values[i] == Literal(t.columns[i], row[i]))
    ensures r.statement.Update? ==>
      var k := PrimaryKeyIndex(t.columns).value;
      && r.statement.keyColumn == t.columns[k].name
      && r.statement.keyValue == Literal(t.columns[k], row[k])
      && |r.statement.assignments| == |t.columns|
      && forall i :: 0 <= i < |t.columns| ==> r.statement.assignments[i] == Assignment(t.columns[i].name, Literal(t.columns[i], row[i]))
    ensures r.writeBack.SetKey? <==>
      && r.statement.Insert?
      && PrimaryKeyIndex(t.columns).Some?
      && keyMutable
      && t.columns[PrimaryKeyIndex(t.columns).value].javaType == JLong
      && generatedKey != Some(-1)
    ensures r.writeBack.SetKey? ==> r.writeBack.key == generatedKey
  {
    var k := PrimaryKeyIndex(t.columns);
    var names := seq(|t.columns|, i requires 0 <= i < |t.columns| => t.columns[i].name);
    var values := seq(|t.columns|, i requires 0 <= i < |t.columns| => Literal(t.columns[i], row[i]));
    if k.None? || row[k.value].NullValue? then
      var writeBack :=
        if k.Some? && keyMutable && t.columns[k.value].javaType == JLong && generatedKey != Some(-1)
        then SetKey(generatedKey) else KeepKey;
      SaveOutcome(Insert(t.name, names, values), writeBack)
    else
      var sets := seq(|t.columns|, i requires 0 <= i < |t.columns| => Assignment(names[i], values[i]));
      SaveOutcome(Update(t.name, sets, t.columns[k.value].name, values[k.value]), KeepKey)
  }

  /** `save`: resolve the entity's table (which may throw), then decide. */
  function Save(decl: EntityDecl, row: seq<FieldValue>, keyMutable: bool, generatedKey: Option<int>): (r: Result<SaveOutcome, OrmError>)
    requires |row| == |decl.params|
    ensures r.Err? <==> ResolveTableInfo(decl).Err?
    ensures r.Ok? ==> r.value == SaveStatement(ResolveTableInfo(decl).value, row, keyMutable, generatedKey)
  {
    match ResolveTableInfo(decl)
    case Err(e) => Err(e)
    case Ok(t) => Ok(SaveStatement(t, row, keyMutable, generatedKey))
  }

  /**
   * Inserting a row whose key column is a mutable `Long?` property, as every
   * entity key is: the generated key is written back unless the driver
   * reports -1, and a non-mutable or otherwise typed key is left alone.
   */
  lemma WritesBackBoxedKey(t: TableInfo, row: seq<FieldValue>, keyMutable: bool, generatedKey: Option<int>)
    requires RowFits(t, row) && InsertsRow(t, row)
    requires PrimaryKeyIndex(t.columns).Some?
    ensures SaveStatement(t, row, keyMutable, generatedKey).writeBack ==
      if keyMutable && t.columns[PrimaryKeyIndex(t.columns).value].javaType == JLong && generatedKey != Some(-1)
      then SetKey(generatedKey) else KeepKey
  {
  }

  /** What `delete` does: nothing (answering 0) or one DELETE by key. */
  datatype DeleteOutcome = NothingDeleted | DeleteStatement(table: string, keyColumn: string, keyValue: string)

  /**
   * `delete(id)`: a null id answers 0 without resolving the table or issuing
   * SQL; otherwise the key is quoted when the key column is TEXT. Without a
   * key column the template renders the column name as `null`. `id` is the
   * id's text.
   */
  function Delete(decl: EntityDecl, id: Option<string>): (r: Result<DeleteOutcome, OrmError>)
    ensures id.None? ==> r == Ok(NothingDeleted)
    ensures id.Some? ==> (r.Err? <==> ResolveTableInfo(decl).Err?)
    ensures id.Some? && r.Ok? ==>
      var t := ResolveTableInfo(decl).value;
      var k := PrimaryKeyIndex(t.columns);
      && r.value.DeleteStatement?
      && r.value.table == t.name
      && r.value.keyColumn == (if k.Some? then t.columns[k.value].name else "null")
      && r.value.keyValue == (if k.Some? && t.columns[k.value].sqlType == "TEXT" then "\"" + id.value + "\"" else id.value)
  {
    match id
    case None => Ok(NothingDeleted)
    case Some(text) =>
      match ResolveTableInfo(decl)
      case Err(e) => Err(e)
      case Ok(t) =>
        var k := PrimaryKeyIndex(t.columns);
        var keyColumn := if k.Some? then t.columns[k.value].name else "null";
        var quoted := k.Some? && t.columns[k.value].sqlType == "TEXT";
        Ok(DeleteStatement(t.name, keyColumn, if quoted then "\"" + text + "\"" else text))
  }

  /**
   * `delete` and `save` agree on the row they address: for a saved row
   * whose key holds a plain value, deleting by that value's text targets
   * the key column and literal the UPDATE's where-clause names.
   */
  lemma DeleteTargetsSavedRow(decl: EntityDecl, row: seq<FieldValue>, keyMutable: bool, generatedKey: Option<int>)
    requires |row| == |decl.params|
    requires ResolveTableInfo(decl).Ok?
    requires var t := ResolveTableInfo(decl).value;
      PrimaryKeyIndex(t.columns).Some? && row[PrimaryKeyIndex(t.columns).value].OtherValue?
    ensures var t := ResolveTableInfo(decl).value;
      var s := Save(decl, row, keyMutable, generatedKey).value.statement;
      && s.Update?
      && Delete(decl, Some(ToText(row[PrimaryKeyIndex(t.columns).value]))) == Ok(DeleteStatement(s.table, s.keyColumn, s.keyValue))
  {
    var t := ResolveTableInfo(decl).value;
    var k := PrimaryKeyIndex(t.columns).value;
    assert TextBody(t.columns[k], row[k]) == ToText(row[k]);
    assert !InsertsRow(t, row);
  }

  /** A stored SQLite cell as `ResultSet.getInt` sees it. */
  datatype Cell = SqlNull | SqlInteger(v: int)

  const TWO_32: int := 0x1_0000_0000
  const TWO_31: int := 0x8000_0000

  /** `getInt`: SQL NULL reads as 0; a 64-bit value keeps its low 32 bits, signed. */
  function GetInt(c: Cell): (r: int)
    ensures -TWO_31 <= r < TWO_31
    ensures c.SqlNull? ==> r == 0
    ensures c.SqlInteger? ==> (r - c.v) % TWO_32 == 0
  {
    match c
    case SqlNull => 0
    case SqlInteger(v) =>
      var low := v % TWO_32;
      if low >= TWO_31 then low - TWO_32 else low
  }

  /**
   * The Boolean branch of `queryList`. The newer tree maps 0 to false, 1 to
   * true and anything else to null; the older tree maps 0 to false and
   * everything else to null.
   */
  function DecodeBoolean(variant: Variant, c: Cell): (r: Option<bool>)
    ensures variant.Desktop? ==> (r == Some(true) <==> c.SqlInteger? && c.v % TWO_32 == 1)
    ensures r == Some(false) <==> c.SqlNull? || c.v % TWO_32 == 0
    ensures variant.Legacy? ==> r != Some(true)
  {
    var i := GetInt(c);
    match variant
    case Desktop => if i == 0 then Some(false) else if i == 1 then Some(true) else None
    case Legacy => if i == 0 then Some(false) else None
  }

  /** The cell a Boolean property is stored as: SQLite keeps `true`/`false`, `1`/`0` as 1 and 0. */
  function StoredBoolean(b: bool): Cell {
    SqlInteger(if b then 1 else 0)
  }

  /** The newer decoder reads back every stored Boolean; NULL reads as false. */
  lemma BooleanRoundTrip(b: bool)
    ensures DecodeBoolean(Desktop, StoredBoolean(b)) == Some(b)
    ensures DecodeBoolean(Desktop, SqlNull) == Some(false)
  {
  }

  /** The newer decoder: true exactly for values whose low 32 bits are 1. */
  lemma DesktopDecodeCases(c: Cell)
    ensures DecodeBoolean(Desktop, c) == Some(true) <==> c.SqlInteger? && c.v % TWO_32 == 1
    ensures DecodeBoolean(Desktop, c) == Some(false) <==> c.SqlNull? || c.v % TWO_32 == 0
  {
  }

  /** The older decoder never yields true, so a stored true reads back as null. */
  lemma LegacyBooleanLosesTrue(c: Cell)
    ensures DecodeBoolean(Legacy, c) != Some(true)
    ensures DecodeBoolean(Legacy, StoredBoolean(true)) == None
    ensures DecodeBoolean(Legacy, c) == Some(false) <==> DecodeBoolean(Desktop, c) == Some(false)
  {
  }

  /** Why `constructor.call` throws on a row: a null for a non-null parameter. */
  datatype ReadError = NullForNonNull

  /**
   * The value `queryList` hands a Boolean-typed constructor parameter. The
   * newer tree tests the boxed `java.lang.Boolean`, the type of a `Boolean?`
   * property; the older tree tests `Boolean::class.java`, the primitive
   * `boolean`. A parameter that matches neither arm gets the `else` value,
   * null, and a null for a non-null `Boolean` makes `constructor.call` throw.
   */
  function ReadBooleanParam(variant: Variant, t: JavaType, c: Cell): (r: Result<Option<bool>, ReadError>)
    requires t == JBoolean || t == JPrimitiveBoolean
    ensures t == JBoolean ==> r.Ok?
    ensures r == Ok(Some(true)) ==> variant.Desktop? && t == JBoolean
    ensures variant.Legacy? && t == JBoolean ==> r == Ok(None)
    ensures variant.Desktop? && t == JPrimitiveBoolean ==> r.Err?
    ensures variant.Legacy? && t == JPrimitiveBoolean ==> (r.Err? <==> GetInt(c) != 0)
  {
    var value := if HasReadArm(variant, t) then DecodeBoolean(variant, c) else None;
    if t == JPrimitiveBoolean && value.None? then Err(NullForNonNull) else Ok(value)
  }

  /** The newer tree reads a stored `Boolean?` property back unchanged. */
  lemma NullableBooleanRoundTrip(b: bool)
    ensures ReadBooleanParam(Desktop, JBoolean, StoredBoolean(b)) == Ok(Some(b))
  {
    BooleanRoundTrip(b);
  }

  /**
   * The older tree reads every `Boolean?` property, such as
   * `DeviceMessage.isFile`, back as null; a non-null `Boolean` reads false
   * back, and a stored true makes reading the row throw.
   */
  lemma LegacyNullableBooleanReadsNull(b: bool)
    ensures ReadBooleanParam(Legacy, JBoolean, StoredBoolean(b)) == Ok(None)
    ensures ReadBooleanParam(Legacy, JPrimitiveBoolean, StoredBoolean(b)) == (if b then Err(NullForNonNull) else Ok(Some(false)))
  {
  }

  function Nullable(name: string, javaType: JavaType): Param {
    Param(name, javaType, None)
  }

  const KeyAnnotation := Some(ColumnAnnotation("", "", true))

  /** The `Device` entity of the newer tree. */
  const DeviceDecl := EntityDecl("Device", [
    Param("id", JLong, KeyAnnotation), Nullable("clientCode", JString), Nullable("name", JString),
    Nullable("ip", JString), Nullable("port", JInteger), Nullable("channelType", JString),
    Nullable("osName", JString), Nullable("networkType", JString), Nullable("wifiName", JString)])

  /** The `FilePart` entity (the same in both trees). */
  const FilePartDecl := EntityDecl("FilePart", [
    Param("id", JLong, KeyAnnotation), Nullable("deviceMessageId", JLong),
    Nullable("fileHash", JString), Nullable("start", JLong), Nullable("end", JLong)])

  /** The `SysInfo` entity (the same in both trees). */
  const SysInfoDecl := EntityDecl("SysInfo", [
    Param("id", JLong, KeyAnnotation), Nullable("name", JString), Nullable("value", JString)])

  /** A lower-case word followed by one hump: the hump gets an underscore. */
  lemma OneHump(a: string, b: string)
    requires |a| > 0 && NoUpper(a) && a[|a| - 1] != '_'
    requires |b| > 0 && IsUpper(b[0]) && NoUpper(b[1..])
    ensures ToUnderCase(a + b) == a + "_" + [ToLower(b[0])] + b[1..]
  {
    UnderCaseAppend(a, b, NUL);
    UnderCaseFixedPoint(a, NUL);
    UnderCaseHump(b, a[|a| - 1]);
  }

  /** A class name without humps is lower-cased: "Device" gives "device". */
  lemma DeviceTableName()
    ensures TableName("Device") == "device"
  {
    assert ToFirstLower("Device") == "device";
    assert NoUpper("device");
    UnderCaseFixedPoint("device", NUL);
  }

  /** Each further hump of a class name gets an underscore: "DeviceMessage" gives "device_message". */
  lemma DeviceMessageTableName()
    ensures TableName("DeviceMessage") == "device_message"
  {
    assert ToFirstLower("DeviceMessage") == "device" + "Message";
    assert NoUpper("device") && IsUpper("Message"[0]) && NoUpper("Message"[1..]);
    OneHump("device", "Message");
    assert "device" + "_" + [ToLower("Message"[0])] + "Message"[1..] == "device_message" by {
      assert ToLower('M') == 'm';
    }
  }

  /** A property name becomes a snake_case column name: "clientCode" gives "client_code". */
  lemma ClientCodeColumnName()
    ensures ColumnName(Param("clientCode", JString, None)) == "client_code"
  {
    assert "clientCode" == "client" + "Code";
    assert NoUpper("client") && IsUpper("Code"[0]) && NoUpper("Code"[1..]);
    OneHump("client", "Code");
    assert "client" + "_" + [ToLower("Code"[0])] + "Code"[1..] == "client_code" by {
      assert ToLower('C') == 'c';
    }
  }

  /** Every declared entity resolves: all its property types have a storage class. */
  lemma DeviceResolves()
    ensures ResolveTableInfo(DeviceDecl).Ok?
  {
  }

  lemma FilePartResolves()
    ensures ResolveTableInfo(FilePartDecl).Ok?
  {
  }

  lemma SysInfoResolves()
    ensures ResolveTableInfo(SysInfoDecl).Ok?
  {
  }
}

=== FILE: progress.dfy ===
/**
 * `OnDownloadProgressEvent` in the older `Server.kt`: progress events reach
 * the UI block only when more than 200 ms have passed since the last one
 * that did, or when the transfer is complete. The clock is an input.
 */
module Progress {

  const IntervalMs: int := 200

  /**
   * A progress event as the throttle sees it: `now` is the clock reading the
   * rule tests, `after` the second reading taken once the UI block has run,
   * which is the one remembered when the event is forwarded.
   */
  datatype Tick = Tick(now: int, after: int, handleSize: int, totalSize: int)

  /** The final event of a transfer. */
  predicate Final(t: Tick) {
    t.handleSize >= t.totalSize
  }

  /** One event: forward it or not, and the new time of the last forward. */
  datatype Step = Step(forward: bool, last: int)

  function Throttle(last: int, t: Tick): (r: Step)
    ensures r.forward <==> t.now - last > IntervalMs || Final(t)
    ensures r.last == (if r.forward then t.after else last)
  {
    if t.now - last > IntervalMs || t.handleSize >= t.totalSize then Step(true, t.after) else Step(false, last)
  }

  /** Whether each event of a run is forwarded, starting from the last forward time. */
  function Decisions(last: int, ticks: seq<Tick>): (r: seq<bool>)
    ensures |r| == |ticks|
    ensures forall i :: 0 <= i < |ticks| && Final(ticks[i]) ==> r[i]
    decreases |ticks|
  {
    if |ticks| == 0 then []
    else
      var s := Throttle(last, ticks[0]);
      var rest := Decisions(s.last, ticks[1..]);
      assert forall i :: 1 <= i < |ticks| ==> ticks[1..][i - 1] == ticks[i];
      [s.forward] + rest
  }

  /** The time of the last forward before event `i` (the starting time if none). */
  function LastForward(last: int, ticks: seq<Tick>, i: nat): int
    requires i <= |ticks|
    decreases i
  {
    if i == 0 then last else LastForward(Throttle(last, ticks[0]).last, ticks[1..], i - 1)
  }

  /** Event `i` is decided by the rule, against the last forward before it. */
  lemma {:induction false} DecisionAt(last: int, ticks: seq<Tick>, i: nat)
    requires i < |ticks|
    ensures Decisions(last, ticks)[i] == Throttle(LastForward(last, ticks, i), ticks[i]).forward
    ensures LastForward(last, ticks, i + 1) == Throttle(LastForward(last, ticks, i), ticks[i]).last
    decreases i
  {
    if i > 0 {
      DecisionAt(Throttle(last, ticks[0]).last, ticks[1..], i - 1);
      assert ticks[1..][i - 1] == ticks[i];
    }
  }

  /** A suppressed event is never final and comes at most 200 ms after the last forward. */
  lemma SuppressedAreRecent(last: int, ticks: seq<Tick>, i: nat)
    requires i < |ticks| && !Decisions(last, ticks)[i]
    ensures !Final(ticks[i])
    ensures ticks[i].now - LastForward(last, ticks, i) <= IntervalMs
  {
    DecisionAt(last, ticks, i);
  }

  /** Between two forwards, the last forward time is the reading taken after the earlier one's block. */
  lemma {:induction false} LastForwardIsLatest(last: int, ticks: seq<Tick>, i: nat, j: nat)
    requires i < j <= |ticks|
    requires Decisions(last, ticks)[i]
    requires forall k :: i < k < j ==> !Decisions(last, ticks)[k]
    ensures LastForward(last, ticks, j) == ticks[i].after
    decreases j - i
  {
    DecisionAt(last, ticks, j - 1);
    if j - 1 > i {
      LastForwardIsLatest(last, ticks, i, j - 1);
    }
  }

  /**
   * Two consecutive forwarded events are more than 200 ms apart, counted from
   * the end of the earlier one's block, unless the later one is final; when
   * the clock does not run backwards across that block, they are also more
   * than 200 ms apart by their tested readings.
   */
  lemma ForwardsAreSpaced(last: int, ticks: seq<Tick>, i: nat, j: nat)
    requires i < j < |ticks|
    requires Decisions(last, ticks)[i] && Decisions(last, ticks)[j]
    requires forall k :: i < k < j ==> !Decisions(last, ticks)[k]
    ensures ticks[j].now - ticks[i].after > IntervalMs || Final(ticks[j])
    ensures ticks[i].after >= ticks[i].now ==> ticks[j].now - ticks[i].now > IntervalMs || Final(ticks[j])
  {
    LastForwardIsLatest(last, ticks, i, j);
    DecisionAt(last, ticks, j);
  }
}

=== FILE: schema.dfy ===
/**
 * Schema synchronisation of `updateTableStruct` (both trees): the CREATE
 * TABLE text for a declared table, the parser that reads column definitions
 * back from the text SQLite keeps in `sqlite_master`, and the list of
 * columns to add. The trees differ only in how the key column is marked.
 */
module Schema {
  import opened Common
  import opened Chars
  import opened Text
  import opened Orm

  /** The text appended to the key column's definition. */
  function KeySuffix(v: Variant): string {
    match v
    case Desktop => " primary key AUTOINCREMENT "
    case Legacy => " primary key"
  }

  /** `name type`, plus the key suffix for the key column. */
  function ColumnDefinition(v: Variant, c: ColumnInfo): string {
    c.name + " " + c.sqlType + (if c.isPrimaryKey then KeySuffix(v) else "")
  }

  function ColumnDefinitions(v: Variant, cs: seq<ColumnInfo>): (r: seq<string>)
    ensures |r| == |cs|
    ensures forall i :: 0 <= i < |cs| ==> r[i] == ColumnDefinition(v, cs[i])
  {
    seq(|cs|, i requires 0 <= i < |cs| => ColumnDefinition(v, cs[i]))
  }

  const CreatePrefix: string := "create table "
  const StoredPrefix: string := "CREATE TABLE "

  /** The statement issued when the table does not exist yet. */
  function CreateTableSql(v: Variant, t: TableInfo): (r: string)
    ensures StartsWith(r, CreatePrefix + t.name + "(") && r[|r| - 1] == ')'
    ensures StoredSql(r) == StoredPrefix + r[|CreatePrefix|..]
  {
    var r := CreatePrefix + t.name + "(" + JoinWith(", ", ColumnDefinitions(v, t.columns)) + ")";
    assert r[..|CreatePrefix + t.name + "("|] == CreatePrefix + t.name + "(";
    r
  }

  /**
   * The text SQLite keeps in `sqlite_master.sql`: the statement as issued,
   * with the leading `CREATE TABLE` keywords in upper case.
   */
  function StoredSql(sql: string): (r: string)
    ensures |r| == |sql| && LowerAll(r) == LowerAll(sql)
    ensures forall i :: |CreatePrefix| <= i < |sql| ==> r[i] == sql[i]
    ensures !StartsWith(sql, CreatePrefix) ==> r == sql
  {
    if StartsWith(sql, CreatePrefix) then
      var rest := sql[|CreatePrefix|..];
      assert sql == CreatePrefix + rest;
      assert LowerAll(StoredPrefix) == LowerAll(CreatePrefix);
      LowerAllAppend(StoredPrefix, rest);
      LowerAllAppend(CreatePrefix, rest);
      StoredPrefix + rest
    else sql
  }

  /** The end of the text `.` can match from `i`: the next line terminator, or the end. */
  function LineEnd(s: string, i: nat): (r: nat)
    requires i <= |s|
    ensures i <= r <= |s|
    ensures forall j :: i <= j < r ==> !IsLineTerminator(s[j])
    ensures r < |s| ==> IsLineTerminator(s[r])
    decreases |s| - i
  {
    if i == |s| || IsLineTerminator(s[i]) then i else LineEnd(s, i + 1)
  }

  /**
   * `Pattern.compile("$name\\s*(.*)").matcher(sql).find()` and `group(1)`: the
   * first occurrence of the table name, blanks after it skipped, the rest of
   * that line. The name is taken literally.
   */
  function MatchGroup(tableName: string, sql: string): (r: Option<string>)
    ensures r.None? <==> !Contains(sql, tableName)
  {
    match IndexOf(sql, tableName)
    case None => None
    case Some(i) =>
      var j := SpaceEnd(sql, i + |tableName|);
      Some(sql[j..LineEnd(sql, j)])
  }

  /** One column as the parser reads it back. */
  datatype ParsedColumn = ParsedColumn(name: string, sqlType: string, isPrimaryKey: bool)

  /** The exceptions the parser can throw. */
  datatype SchemaError =
    | BodyTooShort(group: string)     // `substring(1, length - 1)` on fewer than two characters
    | MalformedColumn(piece: string)  // `columnAry[1]` on a piece with fewer than two tokens

  /** Token 0 is the name, token 1 the type; the key flag is whether the piece mentions "primary". */
  function ParseColumn(piece: string): (r: Result<ParsedColumn, SchemaError>)
    ensures r.Err? <==> |SplitRuns(Trim(piece))| < 2
    ensures r.Ok? ==> r.value.isPrimaryKey == Contains(LowerAll(piece), "primary")
  {
    var tokens := SplitRuns(Trim(piece));
    if |tokens| < 2 then Err(MalformedColumn(piece))
    else Ok(ParsedColumn(tokens[0], tokens[1], Contains(LowerAll(piece), "primary")))
  }

  /** Parse every piece in order; the first malformed one aborts. */
  function ParseColumns(pieces: seq<string>): (r: Result<seq<ParsedColumn>, SchemaError>)
    ensures r.Ok? ==> |r.value| == |pieces|
    ensures r.Ok? ==> forall i :: 0 <= i < |pieces| ==> ParseColumn(pieces[i]) == Ok(r.value[i])
    ensures r.Ok? <==> forall i :: 0 <= i < |pieces| ==> ParseColumn(pieces[i]).Ok?
  {
    Collect(seq(|pieces|, i requires 0 <= i < |pieces| => ParseColumn(pieces[i])))
  }

  /**
   * The prior columns of an existing table: `None` when the pattern does not
   * match; otherwise the group minus its first and last character, split
   * on commas, each piece parsed.
   */
  function ReadColumns(tableName: string, sql: string): (r: Result<Option<seq<ParsedColumn>>, SchemaError>)
    ensures !Contains(sql, tableName) ==> r == Ok(None)
  {
    match MatchGroup(tableName, sql)
    case None => Ok(None)
    case Some(group) =>
      if |group| < 2 then Err(BodyTooShort(group))
      else
        match ParseColumns(SplitOn(group[1..|group| - 1], ','))
        case Err(e) => Err(e)
        case Ok(cs) => Ok(Some(cs))
  }

  /** The names of the prior columns (the keys of `oldColumnMap`). */
  function OldNames(prior: seq<ParsedColumn>): set<string> {
    set c | c in prior :: c.name
  }

  /** The declared columns whose name the prior table lacks, in declaration order. */
  function ColumnsToAdd(declared: seq<ColumnInfo>, prior: seq<ParsedColumn>): (r: seq<ColumnInfo>)
    ensures |r| <= |declared|
    ensures forall c :: c in r <==> c in declared && c.name !in OldNames(prior)
  {
    if |declared| == 0 then []
    else
      var rest := ColumnsToAdd(declared[1..], prior);
      assert forall c :: c in declared <==> c == declared[0] || c in declared[1..];
      if declared[0].name in OldNames(prior) then rest else [declared[0]] + rest
  }

  /** The filter keeps order: the columns to add from a concatenation are those of each part in turn. */
  lemma {:induction false} ColumnsToAddAppend(a: seq<ColumnInfo>, b: seq<ColumnInfo>, prior: seq<ParsedColumn>)
    ensures ColumnsToAdd(a + b, prior) == ColumnsToAdd(a, prior) + ColumnsToAdd(b, prior)
    decreases |a|
  {
    if |a| > 0 {
      assert (a + b)[1..] == a[1..] + b;
      ColumnsToAddAppend(a[1..], b, prior);
    } else {
      assert a + b == b;
    }
  }

  /** `oldColumnMap[name]`: the map keeps the last prior column of each name. */
  function LastWithName(prior: seq<ParsedColumn>, name: string): (r: Option<ParsedColumn>)
    ensures r.Some? <==> name in OldNames(prior)
    ensures r.Some? ==> r.value in prior && r.value.name == name
  {
    if |prior| == 0 then None
    else if prior[|prior| - 1].name == name then Some(prior[|prior| - 1])
    else
      var r := LastWithName(prior[..|prior| - 1], name);
      assert forall c :: c in prior <==> c in prior[..|prior| - 1] || c == prior[|prior| - 1];
      r
  }

  /** A declared column and the prior column of its name disagree on type (trimmed, case-blind) or key flag. */
  predicate Differs(c: ColumnInfo, o: ParsedColumn) {
    LowerAll(Trim(c.sqlType)) != LowerAll(Trim(o.sqlType)) || c.isPrimaryKey != o.isPrimaryKey
  }

  /** The declared columns that only draw a warning: present in the prior table but different. */
  function Warnings(declared: seq<ColumnInfo>, prior: seq<ParsedColumn>): (r: seq<ColumnInfo>)
    ensures forall c :: c in r <==> c in declared && LastWithName(prior, c.name).Some? && Differs(c, LastWithName(prior, c.name).value)
  {
    if |declared| == 0 then []
    else
      var rest := Warnings(declared[1..], prior);
      assert forall c :: c in declared <==> c == declared[0] || c in declared[1..];
      var o := LastWithName(prior, declared[0].name);
      if o.Some? && Differs(declared[0], o.value) then [declared[0]] + rest else rest
  }

  /** A column that draws a warning is never added (nor altered, nor dropped). */
  lemma WarnedNotAdded(declared: seq<ColumnInfo>, prior: seq<ParsedColumn>)
    ensures forall c :: c in Warnings(declared, prior) ==> c !in ColumnsToAdd(declared, prior)
  {
  }

  /** A row of `sqlite_master` for the table; its `sql` may be null. */
  datatype MasterRow = MasterRow(sql: Option<string>)

  /** What `updateTableStruct` ends up executing. */
  datatype Migration =
    | CreateTable(sql: string)
    | AddColumns(columns: seq<ColumnInfo>)
    | Unmatched

  /** The statement text up to the added column's definition. */
  function AlterHead(t: TableInfo): string {
    "alter table " + t.name + " add column "
  }

  /** The definition an `alter table` carries: name, type, then `primary key` or nothing. */
  function AddedDefinition(c: ColumnInfo): string {
    c.name + " " + c.sqlType + " " + (if c.isPrimaryKey then "primary key" else "")
  }

  /**
   * The `alter table` statement for one added column. For a column whose
   * definition is recoverable at all, the definition it carries parses back,
   * under the parser `updateTableStruct` uses on stored CREATE text, to the
   * column's name, type and key flag.
   */
  function AlterSql(t: TableInfo, c: ColumnInfo): (r: string)
    ensures StartsWith(r, AlterHead(t))
    ensures Recoverable(c) ==> ParseColumn(r[|AlterHead(t)|..]) == Ok(Project(c))
  {
    var r := AlterHead(t) + AddedDefinition(c);
    assert r[..|AlterHead(t)|] == AlterHead(t);
    assert r[|AlterHead(t)|..] == AddedDefinition(c);
    assert Recoverable(c) ==> ParseColumn(AddedDefinition(c)) == Ok(Project(c)) by {
      if Recoverable(c) {
        ParseAddedDefinition(c);
      }
    }
    r
  }

  /** `updateTableStruct` given the table's `sqlite_master` row, if any. */
  function Sync(v: Variant, t: TableInfo, existing: Option<MasterRow>): (r: Result<Migration, SchemaError>)
    ensures r.Ok? && r.value.CreateTable? <==> existing.None?
    ensures r.Err? ==> existing.Some? && existing.value.sql.Some? && Contains(existing.value.sql.value, t.name)
    ensures existing.Some? && (existing.value.sql.None? || !Contains(existing.value.sql.value, t.name)) ==> r == Ok(Unmatched)
    ensures r.Ok? && r.value.AddColumns? ==> forall c :: c in r.value.columns ==> c in t.columns
  {
    match existing
    case None => Ok(CreateTable(CreateTableSql(v, t)))
    case Some(row) =>
      match row.sql
      case None => Ok(Unmatched)
      case Some(sql) =>
        match ReadColumns(t.name, sql)
        case Err(e) => Err(e)
        case Ok(None) => Ok(Unmatched)
        case Ok(Some(prior)) => Ok(AddColumns(ColumnsToAdd(t.columns, prior)))
  }

  // ---------------------------------------------------------------------
  // Reading back what was created

  /** A name or type the parser can recover: non-empty, no blank, comma or line break. */
  predicate IsWord(s: string) {
    |s| > 0 && forall i :: 0 <= i < |s| ==> !IsWhitespace(s[i]) && s[i] != ',' && !IsLineTerminator(s[i])
  }

  /** A column whose definition reads back: words that do not mention "primary". */
  predicate Recoverable(c: ColumnInfo) {
    IsWord(c.name) && IsWord(c.sqlType)
    && !Contains(LowerAll(c.name), "primary") && !Contains(LowerAll(c.sqlType), "primary")
  }

  /**
   * A table whose CREATE text reads back: the name cannot occur inside the
   * upper-case keywords (its first character is neither upper case nor a
   * blank), and there is at least one column.
   */
  predicate RecoverableTable(t: TableInfo) {
    |t.name| > 0 && !IsUpper(t.name[0]) && t.name[0] != ' '
    && |t.columns| >= 1
    && forall i :: 0 <= i < |t.columns| ==> Recoverable(t.columns[i])
  }

  function Project(c: ColumnInfo): ParsedColumn {
    ParsedColumn(c.name, c.sqlType, c.isPrimaryKey)
  }

  function Projected(cs: seq<ColumnInfo>): (r: seq<ParsedColumn>)
    ensures |r| == |cs|
    ensures forall i :: 0 <= i < |cs| ==> r[i] == Project(cs[i])
  {
    seq(|cs|, i requires 0 <= i < |cs| => Project(cs[i]))
  }

  /** The trimmed part of the key suffix that follows the type. */
  function KeyWords(v: Variant): string {
    match v
    case Desktop => " primary key AUTOINCREMENT"
    case Legacy => " primary key"
  }

  lemma KeySuffixParts(v: Variant)
    ensures KeySuffix(v) == KeyWords(v) + (if v.Desktop? then " " else "")
    ensures |KeyWords(v)| > 8 && KeyWords(v)[0] == ' '
    ensures KeyWords(v)[1..8] == "primary"
    ensures !IsWhitespace(KeyWords(v)[|KeyWords(v)| - 1])
  {
    match v
    case Desktop =>
      assert KeySuffix(v) == KeyWords(v) + " ";
    case Legacy =>
      assert KeySuffix(v) == KeyWords(v);
  }

  /** The key suffix holds no comma and no line break. */
  lemma KeySuffixClean(v: Variant)
    ensures forall i :: 0 <= i < |KeySuffix(v)| ==> KeySuffix(v)[i] != ',' && !IsLineTerminator(KeySuffix(v)[i])
  {
    match v
    case Desktop =>
    case Legacy =>
  }

  /** A word is a piece with no regex blank. */
  lemma WordHasNoSpace(s: string)
    requires IsWord(s)
    ensures NoRegexSpace(s)
  {
  }

  /** The definition minus the trailing blank of the Desktop key suffix. */
  function Core(v: Variant, c: ColumnInfo): string {
    c.name + " " + c.sqlType + (if c.isPrimaryKey then KeyWords(v) else "")
  }

  /** The core starts with the name and ends with the type or the key words. */
  lemma CoreEnds(v: Variant, c: ColumnInfo)
    requires IsWord(c.name) && IsWord(c.sqlType)
    ensures |Core(v, c)| > 0 && !IsWhitespace(Core(v, c)[0])
    ensures !IsWhitespace(Core(v, c)[|Core(v, c)| - 1])
  {
    KeySuffixParts(v);
    var words := if c.isPrimaryKey then KeyWords(v) else c.sqlType;
    var core := Core(v, c);
    assert core[0] == c.name[0];
    assert core[|core| - 1] == words[|words| - 1];
  }

  /** The definition is its core followed by at most one blank. */
  lemma DefinitionIsCore(v: Variant, c: ColumnInfo)
    ensures ColumnDefinition(v, c) == Core(v, c) + (if c.isPrimaryKey && v.Desktop? then " " else "")
  {
    KeySuffixParts(v);
  }

  /** Trimming a definition, with or without a leading blank, leaves its core. */
  lemma TrimDefinition(v: Variant, c: ColumnInfo, lead: string)
    requires IsWord(c.name) && IsWord(c.sqlType)
    requires lead == "" || lead == " "
    ensures Trim(lead + ColumnDefinition(v, c)) == Core(v, c)
  {
    var trail := if c.isPrimaryKey && v.Desktop? then " " else "";
    var core := Core(v, c);
    DefinitionIsCore(v, c);
    CoreEnds(v, c);
    assert AllWhitespace(lead) && AllWhitespace(trail);
    assert lead + ColumnDefinition(v, c) == lead + core + trail;
    TrimSurrounded(lead, core, trail);
  }

  /** The core's first two tokens are the name and the type. */
  lemma {:induction false} CoreTokens(v: Variant, c: ColumnInfo)
    requires IsWord(c.name) && IsWord(c.sqlType)
    ensures |SplitRuns(Core(v, c))| >= 2
    ensures SplitRuns(Core(v, c))[0] == c.name && SplitRuns(Core(v, c))[1] == c.sqlType
  {
    KeySuffixParts(v);
    WordHasNoSpace(c.name);
    WordHasNoSpace(c.sqlType);
    SplitRunsTwoWords(c.name, c.sqlType, if c.isPrimaryKey then KeyWords(v) else "");
  }

  /** The key suffix mentions "primary" once lower-cased. */
  lemma KeySuffixSaysPrimary(v: Variant)
    ensures Contains(LowerAll(KeySuffix(v)), "primary")
  {
    var ls := LowerAll(KeySuffix(v));
    KeySuffixParts(v);
    assert ls[1..][..7] == "primary";
  }

  /** A key column's definition is its head followed by the key suffix. */
  lemma KeyDefinitionSplit(v: Variant, c: ColumnInfo, lead: string)
    requires c.isPrimaryKey
    ensures lead + ColumnDefinition(v, c) == lead + c.name + " " + c.sqlType + KeySuffix(v)
  {
  }

  /** A key column's definition mentions "primary" once lower-cased. */
  lemma KeyDefinitionSaysPrimary(v: Variant, c: ColumnInfo, lead: string)
    requires c.isPrimaryKey
    ensures Contains(LowerAll(lead + ColumnDefinition(v, c)), "primary")
  {
    var head := lead + c.name + " " + c.sqlType;
    assert lead + ColumnDefinition(v, c) == head + KeySuffix(v) by {
      KeyDefinitionSplit(v, c, lead);
    }
    assert Contains(LowerAll(head + KeySuffix(v)), "primary") by {
      KeySuffixSaysPrimary(v);
      LowerSuffixContains(head, KeySuffix(v), "primary");
    }
  }

  /** Lower-casing keeps a joining blank in place. */
  lemma LowerAround(a: string, b: string)
    ensures LowerAll(a + [' '] + b) == LowerAll(a) + [' '] + LowerAll(b)
  {
  }

  /** A leading blank cannot start an occurrence of "primary". */
  lemma {:induction false} BlankLeadLacksPrimary(s: string)
    requires !Contains(LowerAll(s), "primary")
    ensures !Contains(LowerAll(" " + s), "primary")
  {
    assert LowerAll(" " + s) == "" + [' '] + LowerAll(s);
    assert !Contains("", "primary");
    NotContainsAcross("", ' ', LowerAll(s), "primary");
  }

  /** Any other column's definition does not. */
  lemma {:induction false} PlainDefinitionLacksPrimary(v: Variant, c: ColumnInfo, lead: string)
    requires Recoverable(c) && !c.isPrimaryKey
    requires lead == "" || lead == " "
    ensures !Contains(LowerAll(lead + ColumnDefinition(v, c)), "primary")
  {
    var words := c.name + [' '] + c.sqlType;
    assert ColumnDefinition(v, c) == words;
    LowerAround(c.name, c.sqlType);
    NotContainsAcross(LowerAll(c.name), ' ', LowerAll(c.sqlType), "primary");
    if lead == " " {
      BlankLeadLacksPrimary(words);
    } else {
      assert lead + words == words;
    }
  }

  /** One definition, with or without the blank that follows a comma, parses back to its column. */
  lemma ParseDefinition(v: Variant, c: ColumnInfo, lead: string)
    requires Recoverable(c)
    requires lead == "" || lead == " "
    ensures ParseColumn(lead + ColumnDefinition(v, c)) == Ok(Project(c))
  {
    if c.isPrimaryKey {
      ParseKeyDefinition(v, c, lead);
    } else {
      ParsePlainDefinition(v, c, lead);
    }
  }

  /** The key column's definition parses back with its key flag set. */
  lemma ParseKeyDefinition(v: Variant, c: ColumnInfo, lead: string)
    requires IsWord(c.name) && IsWord(c.sqlType) && c.isPrimaryKey
    requires lead == "" || lead == " "
    ensures ParseColumn(lead + ColumnDefinition(v, c)) == Ok(ParsedColumn(c.name, c.sqlType, true))
  {
    ParseDefinitionTokens(v, c, lead);
    KeyDefinitionSaysPrimary(v, c, lead);
  }

  /** Any other column's definition parses back with its key flag clear. */
  lemma ParsePlainDefinition(v: Variant, c: ColumnInfo, lead: string)
    requires Recoverable(c) && !c.isPrimaryKey
    requires lead == "" || lead == " "
    ensures ParseColumn(lead + ColumnDefinition(v, c)) == Ok(ParsedColumn(c.name, c.sqlType, false))
  {
    ParseDefinitionTokens(v, c, lead);
    PlainDefinitionLacksPrimary(v, c, lead);
  }

  /** A definition's first two tokens are the column's name and type. */
  lemma ParseDefinitionTokens(v: Variant, c: ColumnInfo, lead: string)
    requires IsWord(c.name) && IsWord(c.sqlType)
    requires lead == "" || lead == " "
    ensures var piece := lead + ColumnDefinition(v, c);
      ParseColumn(piece) == Ok(ParsedColumn(c.name, c.sqlType, Contains(LowerAll(piece), "primary")))
  {
    var piece := lead + ColumnDefinition(v, c);
    TrimDefinition(v, c, lead);
    CoreTokens(v, c);
    ParseTokensOf(piece, Core(v, c), c.name, c.sqlType);
  }

  /** What `ParseColumn` yields once the trimmed piece and its first two tokens are known. */
  lemma ParseTokensOf(piece: string, trimmed: string, name: string, sqlType: string)
    requires Trim(piece) == trimmed
    requires |SplitRuns(trimmed)| >= 2 && SplitRuns(trimmed)[0] == name && SplitRuns(trimmed)[1] == sqlType
    ensures ParseColumn(piece) == Ok(ParsedColumn(name, sqlType, Contains(LowerAll(piece), "primary")))
  {
  }

  /**
   * The definition of an added column parses back to the column: a key
   * column's is the older tree's key definition, any other one's is the
   * plain definition with one trailing blank, which `trim` removes.
   */
  lemma ParseAddedDefinition(c: ColumnInfo)
    requires Recoverable(c)
    ensures ParseColumn(AddedDefinition(c)) == Ok(Project(c))
  {
    if c.isPrimaryKey {
      assert AddedDefinition(c) == "" + ColumnDefinition(Legacy, c);
      ParseDefinition(Legacy, c, "");
    } else {
      ParseAddedPlain(c);
    }
  }

  lemma ParseAddedPlain(c: ColumnInfo)
    requires Recoverable(c) && !c.isPrimaryKey
    ensures ParseColumn(AddedDefinition(c)) == Ok(Project(c))
  {
    var words := ColumnDefinition(Legacy, c);
    AddedPlainTrims(c);
    AddedPlainLacksPrimary(c);
    CoreTokens(Legacy, c);
    ParseTokensOf(AddedDefinition(c), words, c.name, c.sqlType);
  }

  lemma AddedPlainTrims(c: ColumnInfo)
    requires IsWord(c.name) && IsWord(c.sqlType) && !c.isPrimaryKey
    ensures Trim(AddedDefinition(c)) == Core(Legacy, c)
  {
    var words := Core(Legacy, c);
    assert AddedDefinition(c) == "" + words + " ";
    CoreEnds(Legacy, c);
    assert AllWhitespace("") && AllWhitespace(" ");
    TrimSurrounded("", words, " ");
  }

  lemma AddedPlainLacksPrimary(c: ColumnInfo)
    requires Recoverable(c) && !c.isPrimaryKey
    ensures !Contains(LowerAll(AddedDefinition(c)), "primary")
  {
    var words := ColumnDefinition(Legacy, c);
    PlainDefinitionLacksPrimary(Legacy, c, "");
    assert "" + words == words;
    assert !Contains("", "primary");
    NotContainsAcross(LowerAll(words), ' ', "", "primary");
    LowerAllAppend(words, " ");
    assert AddedDefinition(c) == words + " ";
    assert LowerAll(words) + [' '] + "" == LowerAll(words + " ");
  }

  /** The stored CREATE text starts with the upper-case keywords, then the table name. */
  lemma StoredCreateText(v: Variant, t: TableInfo)
    ensures StoredSql(CreateTableSql(v, t)) == StoredPrefix + t.name + "(" + JoinWith(", ", ColumnDefinitions(v, t.columns)) + ")"
  {
    var sql := CreateTableSql(v, t);
    assert sql[..|CreatePrefix|] == CreatePrefix;
    assert sql[|CreatePrefix|..] == t.name + "(" + JoinWith(", ", ColumnDefinitions(v, t.columns)) + ")";
  }

  /** Every character of the upper-case keywords is an upper-case letter or a blank. */
  lemma StoredPrefixLetters()
    ensures forall j :: 0 <= j < |StoredPrefix| ==> IsUpper(StoredPrefix[j]) || StoredPrefix[j] == ' '
  {
    assert StoredPrefix == ['C', 'R', 'E', 'A', 'T', 'E', ' ', 'T', 'A', 'B', 'L', 'E', ' '];
  }

  /** The table name first occurs right after the upper-case keywords. */
  lemma {:induction false} NameFollowsKeywords(name: string, rest: string)
    requires |name| > 0 && !IsUpper(name[0]) && name[0] != ' '
    ensures IndexOf(StoredPrefix + name + rest, name) == Some(|StoredPrefix|)
  {
    var s := StoredPrefix + name + rest;
    var at := |StoredPrefix|;
    assert s[at..][..|name|] == name;
    assert StartsWith(s[at..], name);
    StoredPrefixLetters();
    forall j | 0 <= j < at
      ensures !StartsWith(s[j..], name)
    {
      assert s[j..][0] == s[j] == StoredPrefix[j];
    }
    assert Contains(s, name);
  }

  /** When the name is followed by a non-blank and one line of text, the group is that line. */
  lemma {:induction false} GroupAfterName(s: string, name: string, i: nat)
    requires IndexOf(s, name) == Some(i)
    requires i + |name| < |s| && !IsRegexSpace(s[i + |name|])
    requires forall j :: i + |name| <= j < |s| ==> !IsLineTerminator(s[j])
    ensures MatchGroup(name, s) == Some(s[i + |name|..])
  {
    var k := i + |name|;
    assert SpaceEnd(s, k) == k;
    assert LineEnd(s, k) == |s|;
    assert s[k..LineEnd(s, k)] == s[k..];
    assert MatchGroup(name, s) == Some(s[SpaceEnd(s, k)..LineEnd(s, SpaceEnd(s, k))]);
  }

  /** The pattern matches the stored text right after the keywords, and captures the parenthesised list. */
  lemma {:induction false} MatchStoredText(name: string, body: string)
    requires |name| > 0 && !IsUpper(name[0]) && name[0] != ' '
    requires forall i :: 0 <= i < |body| ==> !IsLineTerminator(body[i])
    ensures MatchGroup(name, StoredPrefix + name + "(" + body + ")") == Some("(" + body + ")")
  {
    var rest := "(" + body + ")";
    var s := StoredPrefix + name + rest;
    assert s == StoredPrefix + name + "(" + body + ")";
    NameFollowsKeywords(name, rest);
    var k := |StoredPrefix| + |name|;
    assert s[k..] == rest;
    assert forall j :: k <= j < |s| ==> s[j] == rest[j - k];
    GroupAfterName(s, name, |StoredPrefix|);
  }

  /** Every column definition is free of commas and line breaks. */
  lemma DefinitionsAreClean(v: Variant, t: TableInfo)
    requires RecoverableTable(t)
    ensures forall i :: 0 <= i < |t.columns| ==> ',' !in ColumnDefinition(v, t.columns[i])
    ensures forall i :: 0 <= i < |t.columns| ==> forall j :: 0 <= j < |ColumnDefinition(v, t.columns[i])| ==> !IsLineTerminator(ColumnDefinition(v, t.columns[i])[j])
  {
    KeySuffixClean(v);
  }

  /** Joining clean pieces with ", " introduces no line break. */
  lemma {:induction false} JoinNoLineBreak(pieces: seq<string>)
    requires forall i :: 0 <= i < |pieces| ==> forall j :: 0 <= j < |pieces[i]| ==> !IsLineTerminator(pieces[i][j])
    ensures forall j :: 0 <= j < |JoinWith(", ", pieces)| ==> !IsLineTerminator(JoinWith(", ", pieces)[j])
    decreases |pieces|
  {
    if |pieces| > 1 {
      JoinNoLineBreak(pieces[1..]);
    }
  }

  /** The column list of a table: its definitions joined with ", ". */
  function ColumnList(v: Variant, t: TableInfo): string {
    JoinWith(", ", ColumnDefinitions(v, t.columns))
  }

  /** The pattern captures the parenthesised column list of the stored text. */
  lemma GroupOfCreated(v: Variant, t: TableInfo)
    requires RecoverableTable(t)
    ensures MatchGroup(t.name, StoredSql(CreateTableSql(v, t))) == Some("(" + ColumnList(v, t) + ")")
  {
    StoredCreateText(v, t);
    DefinitionsAreClean(v, t);
    JoinNoLineBreak(ColumnDefinitions(v, t.columns));
    MatchStoredText(t.name, ColumnList(v, t));
  }

  /** Pieces that each parse to the expected column parse, together, to the expected list. */
  lemma ParseColumnsEach(pieces: seq<string>, expected: seq<ParsedColumn>)
    requires |pieces| == |expected|
    requires forall i :: 0 <= i < |pieces| ==> ParseColumn(pieces[i]) == Ok(expected[i])
    ensures ParseColumns(pieces) == Ok(expected)
  {
    var parsed := ParseColumns(pieces);
    assert parsed.Ok?;
    assert parsed.value == expected;
  }

  /** Each comma-separated piece of the column list parses back to its column. */
  lemma PiecesParse(v: Variant, t: TableInfo)
    requires RecoverableTable(t)
    ensures ParseColumns(SplitOn(ColumnList(v, t), ',')) == Ok(Projected(t.columns))
  {
    var defs := ColumnDefinitions(v, t.columns);
    DefinitionsAreClean(v, t);
    SplitJoinComma(defs);
    var pieces := LeadingBlanks(defs);
    var expected := Projected(t.columns);
    forall i | 0 <= i < |pieces|
      ensures ParseColumn(pieces[i]) == Ok(expected[i])
    {
      var lead := if i == 0 then "" else " ";
      assert pieces[i] == lead + ColumnDefinition(v, t.columns[i]);
      ParseDefinition(v, t.columns[i], lead);
    }
    ParseColumnsEach(pieces, expected);
  }

  /**
   * Round trip: reading the stored text of a created table recovers every
   * declared column's name, type and key flag, in order.
   */
  lemma ReadBackCreated(v: Variant, t: TableInfo)
    requires RecoverableTable(t)
    ensures ReadColumns(t.name, StoredSql(CreateTableSql(v, t))) == Ok(Some(Projected(t.columns)))
  {
    GroupOfCreated(v, t);
    var group := "(" + ColumnList(v, t) + ")";
    assert group[1..|group| - 1] == ColumnList(v, t);
    PiecesParse(v, t);
  }

  /** Every declared name is among the names read back, so nothing is added. */
  lemma NothingToAddAgainstOwnColumns(cs: seq<ColumnInfo>)
    ensures ColumnsToAdd(cs, Projected(cs)) == []
  {
    forall c | c in cs
      ensures c.name in OldNames(Projected(cs))
    {
      var i :| 0 <= i < |cs| && cs[i] == c;
      assert Projected(cs)[i] in Projected(cs);
    }
    if ColumnsToAdd(cs, Projected(cs)) != [] {
      assert ColumnsToAdd(cs, Projected(cs))[0] in ColumnsToAdd(cs, Projected(cs));
    }
  }

  /** Synchronising a table against its own CREATE text adds no column and raises no warning. */
  lemma SyncUnchangedAddsNothing(v: Variant, t: TableInfo)
    requires RecoverableTable(t)
    ensures Sync(v, t, Some(MasterRow(Some(StoredSql(CreateTableSql(v, t)))))) == Ok(AddColumns([]))
  {
    ReadBackCreated(v, t);
    NothingToAddAgainstOwnColumns(t.columns);
  }

  /**
   * Adding columns to a declaration: the migration adds exactly the new
   * columns whose names are new, in declaration order.
   */
  lemma SyncAddsNewColumns(v: Variant, t: TableInfo, extra: seq<ColumnInfo>)
    requires RecoverableTable(t)
    requires forall c :: c in extra ==> c.name !in OldNames(Projected(t.columns))
    ensures Sync(v, TableInfo(t.name, t.columns + extra), Some(MasterRow(Some(StoredSql(CreateTableSql(v, t))))))
            == Ok(AddColumns(extra))
  {
    var grown := TableInfo(t.name, t.columns + extra);
    var sql := StoredSql(CreateTableSql(v, t));
    var prior := Projected(t.columns);
    ReadBackCreated(v, t);
    assert ReadColumns(grown.name, sql) == Ok(Some(prior));
    NothingToAddAgainstOwnColumns(t.columns);
    ColumnsToAddAppend(t.columns, extra, prior);
    KeepAllNew(extra, prior);
    assert ColumnsToAdd(grown.columns, prior) == extra;
  }

  lemma {:induction false} KeepAllNew(extra: seq<ColumnInfo>, prior: seq<ParsedColumn>)
    requires forall c :: c in extra ==> c.name !in OldNames(prior)
    ensures ColumnsToAdd(extra, prior) == extra
    decreases |extra|
  {
    if |extra| > 0 {
      assert extra[0] in extra;
      KeepAllNew(extra[1..], prior);
    }
  }
}

=== FILE: str_util.dfy ===
/**
 * The identifier and file-name helpers of `StrUtil.kt` (both trees carry the
 * same `toUnderCase` and `toFirstLower`; `getFileNameAndType` exists only in
 * the newer tree). Characters are ASCII.
 */
module StrUtil {
  import opened Common
  import opened Chars

  const NUL: char := '\0'

  /** No character of `s` is an upper-case letter. */
  predicate NoUpper(s: string) {
    forall i :: 0 <= i < |s| ==> !IsUpper(s[i])
  }

  /** What one input character contributes, given the input character before it. */
  function UnderCasePiece(ch: char, pre: char): string {
    if IsUpper(ch) then (if pre != '_' then "_" else "") + [ToLower(ch)]
    else [ch]
  }

  /** The input character before index `i`; `NUL` before the first one. */
  function Previous(s: string, i: nat): char
    requires i <= |s|
  {
    if i == 0 then NUL else s[i - 1]
  }

  /** `toUnderCase` applied to `s` when the character before it was `pre`. */
  function UnderCaseFrom(s: string, pre: char): (r: string)
    ensures NoUpper(r)
    ensures |r| >= |s|
  {
    if |s| == 0 then ""
    else UnderCasePiece(s[0], pre) + UnderCaseFrom(s[1..], s[0])
  }

  /**
   * `String.toUnderCase()`: camelCase to snake_case. No upper-case letter
   * survives, nothing is dropped, and a name already in lower case passes
   * through unchanged.
   */
  function ToUnderCase(s: string): (r: string)
    ensures NoUpper(r) && |r| >= |s|
    ensures NoUpper(s) ==> r == s
  {
    assert NoUpper(s) ==> UnderCaseFrom(s, NUL) == s by {
      if NoUpper(s) {
        UnderCaseFixedPoint(s, NUL);
      }
    }
    UnderCaseFrom(s, NUL)
  }

  /** Appending one character appends its piece, judged against the character before it. */
  lemma {:induction false} UnderCaseSnoc(s: string, pre: char, c: char)
    ensures UnderCaseFrom(s + [c], pre) == UnderCaseFrom(s, pre) + UnderCasePiece(c, if |s| == 0 then pre else s[|s| - 1])
    decreases |s|
  {
    if |s| == 0 {
      assert [c][1..] == [];
    } else {
      assert (s + [c])[1..] == s[1..] + [c];
      UnderCaseSnoc(s[1..], s[0], c);
    }
  }

  /**
   * The loop of `toUnderCase` as written: a builder and the previous
   * character `pre`, which starts as NUL. It computes `ToUnderCase`.
   */
  method ToUnderCaseLoop(s: string) returns (res: string)
    ensures res == ToUnderCase(s)
    ensures NoUpper(res)
  {
    res := "";
    var pre := NUL;
    var i := 0;
    while i < |s|
      invariant 0 <= i <= |s|
      invariant pre == Previous(s, i)
      invariant res == ToUnderCase(s[..i])
    {
      var ch := s[i];
      if IsUpper(ch) {
        if pre != '_' {
          res := res + "_";
        }
        res := res + [ToLower(ch)];
      } else {
        res := res + [ch];
      }
      UnderCaseSnoc(s[..i], NUL, ch);
      assert s[..i + 1] == s[..i] + [ch];
      pre := ch;
      i := i + 1;
    }
    assert s[..i] == s;
  }

  /** Text without upper-case letters is copied unchanged. */
  lemma {:induction false} UnderCaseFixedPoint(s: string, pre: char)
    requires NoUpper(s)
    ensures UnderCaseFrom(s, pre) == s
    decreases |s|
  {
    if |s| > 0 {
      UnderCaseFixedPoint(s[1..], s[0]);
    }
  }

  /** The result has no upper-case letters, so a second application changes nothing. */
  lemma UnderCaseIdempotent(s: string)
    ensures NoUpper(ToUnderCase(s))
    ensures ToUnderCase(ToUnderCase(s)) == ToUnderCase(s)
  {
    UnderCaseFixedPoint(ToUnderCase(s), NUL);
  }

  /**
   * Each upper-case letter becomes `_` and its lower-case form, except that no
   * `_` is inserted after an input `_`; a leading upper-case letter therefore
   * yields a leading `_`, because the previous character starts as NUL.
   */
  lemma {:induction false} UnderCaseUpperStep(s: string, pre: char)
    requires |s| > 0 && IsUpper(s[0])
    ensures pre != '_' ==> UnderCaseFrom(s, pre) == ['_', ToLower(s[0])] + UnderCaseFrom(s[1..], s[0])
    ensures pre == '_' ==> UnderCaseFrom(s, pre) == [ToLower(s[0])] + UnderCaseFrom(s[1..], s[0])
  {
  }

  /** A leading upper-case letter gets a leading underscore: "Device" gives "_device". */
  lemma LeadingUpperGetsUnderscore(s: string)
    requires |s| > 0 && IsUpper(s[0])
    ensures |ToUnderCase(s)| >= 2
    ensures ToUnderCase(s)[0] == '_' && ToUnderCase(s)[1] == ToLower(s[0])
  {
    UnderCaseUpperStep(s, NUL);
  }

  /** Converting a concatenation converts each part, the second judged against the last character of the first. */
  lemma {:induction false} UnderCaseAppend(a: string, b: string, pre: char)
    requires |a| > 0
    ensures UnderCaseFrom(a + b, pre) == UnderCaseFrom(a, pre) + UnderCaseFrom(b, a[|a| - 1])
    decreases |a|
  {
    assert (a + b)[1..] == a[1..] + b;
    if |a| > 1 {
      UnderCaseAppend(a[1..], b, a[0]);
    } else {
      assert a[1..] + b == b;
    }
  }

  /** One camel-case hump after a character other than `_` becomes `_` and the hump in lower case. */
  lemma UnderCaseHump(word: string, pre: char)
    requires |word| > 0 && IsUpper(word[0]) && NoUpper(word[1..]) && pre != '_'
    ensures UnderCaseFrom(word, pre) == "_" + [ToLower(word[0])] + word[1..]
  {
    UnderCaseUpperStep(word, pre);
    UnderCaseFixedPoint(word[1..], word[0]);
  }

  /** The number of underscores `toUnderCase` inserts. */
  function InsertedUnderscores(s: string, pre: char): nat {
    if |s| == 0 then 0
    else (if IsUpper(s[0]) && pre != '_' then 1 else 0) + InsertedUnderscores(s[1..], s[0])
  }

  /** Every input character survives, and the only growth is the inserted underscores. */
  lemma {:induction false} UnderCaseLength(s: string, pre: char)
    ensures |UnderCaseFrom(s, pre)| == |s| + InsertedUnderscores(s, pre)
    decreases |s|
  {
    if |s| > 0 {
      UnderCaseLength(s[1..], s[0]);
    }
  }

  /** `String.toFirstLower()`: lower-case the first character. */
  function ToFirstLower(s: string): (r: string)
    ensures |r| == |s|
    ensures |s| == 0 ==> r == s
    ensures |s| > 0 ==> r[0] == ToLower(s[0]) && r[1..] == s[1..]
  {
    if |s| == 0 then s else [ToLower(s[0])] + s[1..]
  }

  /**
   * A table name is `toUnderCase(toFirstLower(simpleName))`: the first letter is
   * lowered before underscores are inserted, so the name starts with a
   * letter, not an underscore, unless the class name itself did.
   */
  lemma TableNameNoLeadingUnderscore(className: string)
    requires |className| > 0 && className[0] != '_'
    ensures |ToUnderCase(ToFirstLower(className))| > 0
    ensures ToUnderCase(ToFirstLower(className))[0] == ToLower(className[0]) != '_'
  {
    var f := ToFirstLower(className);
    assert !IsUpper(f[0]);
  }

  /** `lastIndexOf(c)`: the last index holding `c`, or -1. */
  function LastIndexOf(s: string, c: char): (r: int)
    ensures -1 <= r < |s|
    ensures r >= 0 ==> s[r] == c && forall j :: r < j < |s| ==> s[j] != c
    ensures r == -1 <==> c !in s
  {
    if |s| == 0 then -1
    else if s[|s| - 1] == c then |s| - 1
    else
      assert forall j :: 0 <= j < |s| - 1 ==> s[..|s| - 1][j] == s[j];
      LastIndexOf(s[..|s| - 1], c)
  }

  /** A file name split into its base and its type (the text after the last dot). */
  datatype NameAndType = NameAndType(base: string, ext: Option<string>)

  /** `getFileNameAndType`: split a (nullable) file name at its last dot. */
  function FileNameAndType(filename: Option<string>): (r: Option<NameAndType>)
    ensures filename.None? <==> r.None?
    ensures filename.Some? && '.' !in filename.value ==> r == Some(NameAndType(filename.value, None))
    ensures filename.Some? && '.' in filename.value ==>
      r.Some? && r.value.ext.Some? && '.' !in r.value.ext.value
      && r.value.base + "." + r.value.ext.value == filename.value
  {
    match filename
    case None => None
    case Some(f) =>
      var index := LastIndexOf(f, '.');
      if index > -1 then
        assert f[..index] + "." + f[index + 1..] == f;
        Some(NameAndType(f[..index], Some(f[index + 1..])))
      else Some(NameAndType(f, None))
  }

  /** Put a base and an optional type back together, as the download loop does. */
  function JoinNameAndType(nt: NameAndType): string {
    nt.base + (if nt.ext.Some? then "." + nt.ext.value else "")
  }

  /** A split the function can produce: a type has no dot, and without a type the base has none. */
  predicate CanonicalSplit(nt: NameAndType) {
    if nt.ext.Some? then '.' !in nt.ext.value else '.' !in nt.base
  }

  /** Splitting and joining gives back the file name. */
  lemma SplitThenJoin(filename: string)
    ensures FileNameAndType(Some(filename)).Some?
    ensures CanonicalSplit(FileNameAndType(Some(filename)).value)
    ensures JoinNameAndType(FileNameAndType(Some(filename)).value) == filename
  {
  }

  /** Joining a canonical split and splitting again gives back the same parts. */
  lemma JoinThenSplit(nt: NameAndType)
    requires CanonicalSplit(nt)
    ensures FileNameAndType(Some(JoinNameAndType(nt))) == Some(nt)
  {
    var f := JoinNameAndType(nt);
    if nt.ext.Some? {
      var e := nt.ext.value;
      var k := LastIndexOf(f, '.');
      assert f[|nt.base|] == '.';
      assert forall j :: |nt.base| < j < |f| ==> f[j] == e[j - |nt.base| - 1];
      assert k == |nt.base|;
      assert f[..k] == nt.base;
      assert f[k + 1..] == e;
    } else {
      assert f == nt.base;
    }
  }
}

=== FILE: text.dfy ===
/**
 * The pieces of `kotlin.text` and `java.util.regex` that the schema parser
 * relies on: lower-casing, substring search, `trim`, `split(",")` and
 * `split("\\s+".toRegex())`, plus `joinToString`.
 */
module Text {
  import opened Common
  import opened Chars

  /** `String.lowercase()` on ASCII. */
  function LowerAll(s: string): (r: string)
    ensures |r| == |s|
    ensures forall i :: 0 <= i < |s| ==> r[i] == ToLower(s[i])
  {
    seq(|s|, i requires 0 <= i < |s| => ToLower(s[i]))
  }

  lemma LowerAllAppend(a: string, b: string)
    ensures LowerAll(a + b) == LowerAll(a) + LowerAll(b)
  {
  }

  /** `s` begins with `p`. */
  predicate StartsWith(s: string, p: string) {
    |p| <= |s| && s[..|p|] == p
  }

  /** `CharSequence.contains(p)`: `p` occurs somewhere in `s`. */
  predicate Contains(s: string, p: string) {
    exists i :: 0 <= i <= |s| && StartsWith(s[i..], p)
  }

  lemma ContainsSuffix(a: string, b: string, p: string)
    requires Contains(b, p)
    ensures Contains(a + b, p)
  {
    var i :| 0 <= i <= |b| && StartsWith(b[i..], p);
    assert (a + b)[|a| + i..] == b[i..];
  }

  /** A lower-cased text mentions `p` when the lower-cased tail it ends with does. */
  lemma LowerSuffixContains(a: string, b: string, p: string)
    requires Contains(LowerAll(b), p)
    ensures Contains(LowerAll(a + b), p)
  {
    LowerAllAppend(a, b);
    ContainsSuffix(LowerAll(a), LowerAll(b), p);
  }

  /**
   * A pattern that contains no `c` cannot occur across a `c` that joins two
   * strings in which it does not occur.
   */
  lemma {:induction false} NotContainsAcross(a: string, c: char, b: string, p: string)
    requires |p| > 0 && c !in p
    requires !Contains(a, p) && !Contains(b, p)
    ensures !Contains(a + [c] + b, p)
  {
    var s := a + [c] + b;
    forall i | 0 <= i <= |s|
      ensures !StartsWith(s[i..], p)
    {
      if i + |p| <= |s| {
        if i + |p| <= |a| {
          assert !StartsWith(a[i..], p);
          assert s[i..][..|p|] == a[i..][..|p|];
        } else if i > |a| {
          var j := i - |a| - 1;
          assert !StartsWith(b[j..], p);
          assert s[i..][..|p|] == b[j..][..|p|];
        } else {
          assert s[i..][|a| - i] == c;
        }
      }
    }
  }

  /** The first index at or after `from` where `p` occurs in `s`. */
  function IndexOfFrom(s: string, p: string, from: nat): (r: Option<nat>)
    requires from <= |s|
    ensures r.Some? ==> from <= r.value <= |s| && StartsWith(s[r.value..], p)
    ensures r.Some? ==> forall j :: from <= j < r.value ==> !StartsWith(s[j..], p)
    ensures r.None? ==> forall j :: from <= j <= |s| ==> !StartsWith(s[j..], p)
    decreases |s| - from
  {
    if StartsWith(s[from..], p) then Some(from)
    else if from == |s| then None
    else IndexOfFrom(s, p, from + 1)
  }

  /** `indexOf`: the first occurrence of `p` in `s`. */
  function IndexOf(s: string, p: string): (r: Option<nat>)
    ensures r.Some? <==> Contains(s, p)
    ensures r.Some? ==> r.value <= |s| && StartsWith(s[r.value..], p)
    ensures r.Some? ==> forall j :: 0 <= j < r.value ==> !StartsWith(s[j..], p)
  {
    IndexOfFrom(s, p, 0)
  }

  /** Kotlin `trimStart()`: drop leading whitespace. */
  function TrimStart(s: string): (r: string)
    ensures |r| <= |s| && r == s[|s| - |r|..]
    ensures |r| > 0 ==> !IsWhitespace(r[0])
    ensures forall i :: 0 <= i < |s| - |r| ==> IsWhitespace(s[i])
  {
    if |s| > 0 && IsWhitespace(s[0]) then TrimStart(s[1..]) else s
  }

  /** Kotlin `trimEnd()`: drop trailing whitespace. */
  function TrimEnd(s: string): (r: string)
    ensures |r| <= |s| && r == s[..|r|]
    ensures |r| > 0 ==> !IsWhitespace(r[|r| - 1])
    ensures forall i :: |r| <= i < |s| ==> IsWhitespace(s[i])
  {
    if |s| > 0 && IsWhitespace(s[|s| - 1]) then TrimEnd(s[..|s| - 1]) else s
  }

  /** Kotlin `trim()`: drop whitespace at both ends. */
  function Trim(s: string): (r: string)
    ensures |r| == 0 <==> AllWhitespace(s)
    ensures |r| > 0 ==> !IsWhitespace(r[0]) && !IsWhitespace(r[|r| - 1])
    ensures var k := |s| - |TrimStart(s)|;
      && k + |r| <= |s|
      && (forall i :: 0 <= i < |r| ==> r[i] == s[k + i])
      && (forall i :: 0 <= i < k ==> IsWhitespace(s[i]))
      && (forall i :: k + |r| <= i < |s| ==> IsWhitespace(s[i]))
  {
    var t := TrimStart(s);
    var r := TrimEnd(t);
    TrimSlice(s, t, r);
    TrimEmpty(s, t, r);
    r
  }

  /** Where the trimmed text sits in the input, and what surrounds it. */
  lemma TrimSlice(s: string, t: string, r: string)
    requires |t| <= |s| && t == s[|s| - |t|..]
    requires |r| <= |t| && r == t[..|r|]
    requires forall i :: |r| <= i < |t| ==> IsWhitespace(t[i])
    ensures |s| - |t| + |r| <= |s|
    ensures forall i :: 0 <= i < |r| ==> r[i] == s[|s| - |t| + i]
    ensures forall i :: |s| - |t| + |r| <= i < |s| ==> IsWhitespace(s[i])
  {
    var k := |s| - |t|;
    forall i | k + |r| <= i < |s|
      ensures IsWhitespace(s[i])
    {
      assert s[i] == t[i - k];
    }
  }

  /** Only a text of whitespace trims to nothing. */
  lemma TrimEmpty(s: string, t: string, r: string)
    requires |t| <= |s| && t == s[|s| - |t|..]
    requires |t| > 0 ==> !IsWhitespace(t[0])
    requires forall i :: 0 <= i < |s| - |t| ==> IsWhitespace(s[i])
    requires |r| <= |t| && r == t[..|r|]
    requires forall i :: |r| <= i < |t| ==> IsWhitespace(t[i])
    ensures |r| == 0 <==> AllWhitespace(s)
  {
    if |t| > 0 {
      assert t[0] == s[|s| - |t|];
    }
  }

  predicate AllWhitespace(s: string) {
    forall i :: 0 <= i < |s| ==> IsWhitespace(s[i])
  }

  /** Whitespace around a core with non-blank ends is exactly what `trim` removes. */
  lemma {:induction false} TrimSurrounded(pre: string, x: string, post: string)
    requires AllWhitespace(pre) && AllWhitespace(post)
    requires |x| > 0 && !IsWhitespace(x[0]) && !IsWhitespace(x[|x| - 1])
    ensures Trim(pre + x + post) == x
  {
    TrimStartLeading(pre, x + post);
    assert pre + x + post == pre + (x + post);
    TrimEndTrailing(x, post);
  }

  lemma {:induction false} TrimStartLeading(pre: string, y: string)
    requires AllWhitespace(pre)
    requires |y| > 0 && !IsWhitespace(y[0])
    ensures TrimStart(pre + y) == y
    decreases |pre|
  {
    if |pre| > 0 {
      assert (pre + y)[1..] == pre[1..] + y;
      TrimStartLeading(pre[1..], y);
    } else {
      assert pre + y == y;
    }
  }

  lemma {:induction false} TrimEndTrailing(x: string, post: string)
    requires AllWhitespace(post)
    requires |x| > 0 && !IsWhitespace(x[|x| - 1])
    ensures TrimEnd(x + post) == x
    decreases |post|
  {
    if |post| > 0 {
      var post' := post[..|post| - 1];
      assert (x + post)[..|x + post| - 1] == x + post';
      TrimEndTrailing(x, post');
    } else {
      assert x + post == x;
    }
  }

  /** Kotlin `joinToString(sep)`. */
  function JoinWith(sep: string, pieces: seq<string>): string
  {
    if |pieces| == 0 then ""
    else if |pieces| == 1 then pieces[0]
    else pieces[0] + sep + JoinWith(sep, pieces[1..])
  }

  /**
   * Kotlin `split(c)` for a one-character delimiter: every piece, empty ones
   * included. Joining the pieces back with `c` gives the input, and no piece
   * holds a delimiter.
   */
  function SplitOn(s: string, c: char): (r: seq<string>)
    ensures |r| >= 1
    ensures JoinWith([c], r) == s
    ensures forall k :: 0 <= k < |r| ==> c !in r[k]
  {
    if |s| == 0 then [""]
    else
      var rest := SplitOn(s[1..], c);
      if s[0] == c then
        assert JoinWith([c], [""] + rest) == "" + [c] + JoinWith([c], rest);
        [""] + rest
      else
        JoinConsFirst(s[0], rest, [c]);
        [[s[0]] + rest[0]] + rest[1..]
  }

  lemma JoinConsFirst(ch: char, ps: seq<string>, sep: string)
    requires |ps| >= 1
    ensures JoinWith(sep, [[ch] + ps[0]] + ps[1..]) == [ch] + JoinWith(sep, ps)
  {
    var qs := [[ch] + ps[0]] + ps[1..];
    if |ps| > 1 {
      assert qs[1..] == ps[1..];
    }
  }

  /** Splitting a string that begins with a non-delimiter extends the first piece. */
  lemma SplitOnCons(ch: char, s: string, c: char)
    requires ch != c
    ensures SplitOn([ch] + s, c) == [[ch] + SplitOn(s, c)[0]] + SplitOn(s, c)[1..]
  {
    assert ([ch] + s)[1..] == s;
  }

  /** A string without delimiters splits into itself. */
  lemma {:induction false} SplitOnNone(p: string, c: char)
    requires c !in p
    ensures SplitOn(p, c) == [p]
    decreases |p|
  {
    if |p| > 0 {
      assert p == [p[0]] + p[1..];
      SplitOnNone(p[1..], c);
      SplitOnCons(p[0], p[1..], c);
    }
  }

  /** The delimiter right after a delimiter-free prefix closes the first piece. */
  lemma {:induction false} SplitOnPrefix(p: string, c: char, q: string)
    requires c !in p
    ensures SplitOn(p + [c] + q, c) == [p] + SplitOn(q, c)
    decreases |p|
  {
    if |p| == 0 {
      assert p + [c] + q == [c] + q;
      assert ([c] + q)[1..] == q;
    } else {
      assert p + [c] + q == [p[0]] + (p[1..] + [c] + q);
      SplitOnPrefix(p[1..], c, q);
      SplitOnCons(p[0], p[1..] + [c] + q, c);
      assert [p[0]] + p[1..] == p;
    }
  }

  /** The pieces a `", "`-joined list splits back into at `','`: all but the first keep the blank. */
  function LeadingBlanks(pieces: seq<string>): (r: seq<string>)
    requires |pieces| >= 1
    ensures |r| == |pieces| && r[0] == pieces[0]
    ensures forall k :: 1 <= k < |pieces| ==> r[k] == " " + pieces[k]
  {
    seq(|pieces|, k requires 0 <= k < |pieces| => if k == 0 then pieces[0] else " " + pieces[k])
  }

  /** `split(",")` undoes `joinToString(", ")` up to the blank after each comma. */
  lemma {:induction false} SplitJoinComma(pieces: seq<string>)
    requires |pieces| >= 1
    requires forall k :: 0 <= k < |pieces| ==> ',' !in pieces[k]
    ensures SplitOn(JoinWith(", ", pieces), ',') == LeadingBlanks(pieces)
    decreases |pieces|
  {
    if |pieces| == 1 {
      SplitOnNone(pieces[0], ',');
    } else {
      var tail := pieces[1..];
      var jt := JoinWith(", ", tail);
      assert JoinWith(", ", pieces) == pieces[0] + [','] + ([' '] + jt);
      SplitOnPrefix(pieces[0], ',', [' '] + jt);
      SplitJoinComma(tail);
      SplitOnCons(' ', jt, ',');
      var got := SplitOn(JoinWith(", ", pieces), ',');
      assert got == [pieces[0]] + ([[' '] + LeadingBlanks(tail)[0]] + LeadingBlanks(tail)[1..]);
      forall k | 0 <= k < |pieces|
        ensures got[k] == LeadingBlanks(pieces)[k]
      {
        if k >= 2 {
          assert got[k] == LeadingBlanks(tail)[k - 1];
        }
      }
    }
  }

  /** The end of the word starting at `i`: the first regex space at or after `i`, or the end. */
  function WordEnd(s: string, i: nat): (r: nat)
    requires i <= |s|
    ensures i <= r <= |s|
    ensures forall j :: i <= j < r ==> !IsRegexSpace(s[j])
    ensures r < |s| ==> IsRegexSpace(s[r])
    decreases |s| - i
  {
    if i == |s| || IsRegexSpace(s[i]) then i else WordEnd(s, i + 1)
  }

  /** The end of the run of regex spaces starting at `i`. */
  function SpaceEnd(s: string, i: nat): (r: nat)
    requires i <= |s|
    ensures i <= r <= |s|
    ensures forall j :: i <= j < r ==> IsRegexSpace(s[j])
    ensures r < |s| ==> !IsRegexSpace(s[r])
    decreases |s| - i
  {
    if i < |s| && IsRegexSpace(s[i]) then SpaceEnd(s, i + 1) else i
  }

  /**
   * Kotlin `split("\\s+".toRegex())`: pieces between runs of regex spaces;
   * empty pieces at either end are kept.
   */
  function SplitRuns(s: string): (r: seq<string>)
    ensures |r| >= 1
    ensures forall i :: 0 <= i < |r| ==> NoRegexSpace(r[i])
    decreases |s|
  {
    var k := WordEnd(s, 0);
    if k == |s| then [s]
    else [s[..k]] + SplitRuns(s[SpaceEnd(s, k)..])
  }

  predicate NoRegexSpace(s: string) {
    forall i :: 0 <= i < |s| ==> !IsRegexSpace(s[i])
  }

  /** A word with no regex space is one token. */
  lemma {:induction false} SplitRunsWord(a: string)
    requires NoRegexSpace(a)
    ensures SplitRuns(a) == [a]
  {
    WordEndAt(a, 0, |a|);
  }

  /** One step of the split: the first token, then the split of what follows its run of spaces. */
  lemma SplitRunsStep(s: string, k: nat)
    requires k < |s| && WordEnd(s, 0) == k
    ensures SplitRuns(s) == [s[..k]] + SplitRuns(s[SpaceEnd(s, k)..])
  {
  }

  /** The first word of `a + rest` ends where `a` does. */
  lemma {:induction false} WordEndOfPrefix(a: string, rest: string)
    requires NoRegexSpace(a)
    requires |rest| > 0 && IsRegexSpace(rest[0])
    ensures WordEnd(a + rest, 0) == |a|
  {
    var s := a + rest;
    assert forall j :: 0 <= j < |a| ==> s[j] == a[j];
    assert s[|a|] == rest[0];
    WordEndAt(s, 0, |a|);
  }

  /** A word followed by a regex space ends the first token. */
  lemma {:induction false} SplitRunsWordThen(a: string, rest: string)
    requires NoRegexSpace(a)
    requires |rest| > 0 && IsRegexSpace(rest[0])
    ensures SplitRuns(a + rest) == [a] + SplitRuns(rest[SpaceEnd(rest, 0)..])
  {
    var s := a + rest;
    var next := SpaceEnd(rest, 0);
    assert SplitRuns(s) == [s[..|a|]] + SplitRuns(s[SpaceEnd(s, |a|)..]) by {
      WordEndOfPrefix(a, rest);
      SplitRunsStep(s, |a|);
    }
    assert s[..|a|] == a;
    assert s[SpaceEnd(s, |a|)..] == rest[next..] by {
      SpaceEndAfter(a, rest);
    }
  }

  /** The run of spaces after `a` in `a + rest` is the one that starts `rest`. */
  lemma SpaceEndAfter(a: string, rest: string)
    ensures (a + rest)[SpaceEnd(a + rest, |a|)..] == rest[SpaceEnd(rest, 0)..]
  {
    SpaceEndShift(a, rest, 0);
    assert |a| + 0 == |a|;
  }

  lemma {:induction false} SpaceEndShift(a: string, rest: string, i: nat)
    requires i <= |rest|
    ensures SpaceEnd(a + rest, |a| + i) == |a| + SpaceEnd(rest, i)
    ensures (a + rest)[|a| + SpaceEnd(rest, i)..] == rest[SpaceEnd(rest, i)..]
    decreases |rest| - i
  {
    if i < |rest| && IsRegexSpace(rest[i]) {
      assert (a + rest)[|a| + i] == rest[i];
      SpaceEndShift(a, rest, i + 1);
    } else if i < |rest| {
      assert (a + rest)[|a| + i] == rest[i];
    }
  }

  /** A word followed by nothing or by a regex space is the first token. */
  lemma {:induction false} FirstToken(b: string, tail: string)
    requires NoRegexSpace(b)
    requires tail == [] || IsRegexSpace(tail[0])
    ensures SplitRuns(b + tail)[0] == b
  {
    if tail == [] {
      assert b + tail == b;
      SplitRunsWord(b);
    } else {
      SplitRunsWordThen(b, tail);
    }
  }

  /** One blank before a word: the run of spaces is that blank. */
  lemma BlankThenWord(b: string, tail: string)
    requires |b| > 0 && NoRegexSpace(b)
    ensures SpaceEnd(" " + b + tail, 0) == 1
    ensures (" " + b + tail)[1..] == b + tail
  {
    var rest := " " + b + tail;
    assert rest[1] == b[0];
    assert SpaceEnd(rest, 1) == 1;
  }

  /** A word, one blank and a second word give the first two tokens, whatever follows a blank. */
  lemma {:induction false} SplitRunsTwoWords(a: string, b: string, tail: string)
    requires |a| > 0 && |b| > 0 && NoRegexSpace(a) && NoRegexSpace(b)
    requires tail == [] || IsRegexSpace(tail[0])
    ensures |SplitRuns(a + " " + b + tail)| >= 2
    ensures SplitRuns(a + " " + b + tail)[0] == a
    ensures SplitRuns(a + " " + b + tail)[1] == b
  {
    var rest := " " + b + tail;
    assert a + " " + b + tail == a + rest;
    SplitRunsWordThen(a, rest);
    BlankThenWord(b, tail);
    var after := SplitRuns(b + tail);
    assert SplitRuns(a + rest) == [a] + after;
    FirstToken(b, tail);
  }

  lemma {:induction false} WordEndAt(s: string, i: nat, e: nat)
    requires i <= e <= |s|
    requires forall j :: i <= j < e ==> !IsRegexSpace(s[j])
    requires e == |s| || IsRegexSpace(s[e])
    ensures WordEnd(s, i) == e
    decreases e - i
  {
    if i < e {
      WordEndAt(s, i + 1, e);
    }
  }
}
